=== FILE: README.md ===
# digitalhub Run lifecycle and entity rules, in Dafny

This project models the core of the digitalhub SDK and of the platform pieces
around it. Each part is a functional model in Dafny, and the contracts state
what the code promises.

- **Run lifecycle** (`RunLifecycle`, `RunReferences`): the `build`, `run`,
  `wait`, `logs`, `stop` and `resume` operations of a Run.
  - They form a state machine over the run's status mapping.
  - The backend is abstract: every refresh returns whatever snapshot the
    backend holds.
  - The runtime is abstract: its `build` and `run` may fail.
  - The context lookups are abstract.
  - `run` and `build` return the caller's result (the run or the exception
    raised), the record left in memory, and the ordered trace of refreshes,
    saves and runtime calls.
  - `wait` is a loop over a finite stream of refreshed snapshots.
  - `RunReferences` models the two parsers of the `spec.task` reference
    (`{kind}://{path}/{name}:{id}`). One parser recovers the executable's
    name and id. The other builds the task key and the task kind used to
    find the task.
- **Status factory** (`SdkStatus`) of the older SDK:
  - the nine-member `State` enumeration (with `STOP`, not `STOPPED`);
  - the base `Status` value and `from_dict`;
  - the kind-keyed `StatusBuilder` registry and its import-time
    registrations;
  - argument parsing: a missing state defaults to CREATED and a non-member
    state is refused.
- **Older SDK entities** (`SdkRun`, `SdkDataitem`):
  - construction, including the dataitem's `store://` key;
  - `save`, `refresh` and `delete`, with their local-mode refusals;
  - `set_status`;
  - the lookup of a run's artifacts and dataitems;
  - export file names;
  - the dataitem's format resolution before `as_df` reads;
  - the `_parse_dict` rules for mandatory fields and defaults.
- **KFP step builder** (`KfpStep`): `PipelineContext.step`.
  - It builds the container command in its fixed order.
  - It builds the `file_outputs` map, where `.` becomes `_` and a later
    output with the same name wins.
  - It adds the pod labels.
  - It raises in each of the source's error cases, in source order.
- **Small rules**:
  - `ProjectCrud`: which source `load_project` reads, how `get_project`
    reshapes the backend's mapping, and the order of the calls
    `delete_project` makes.
  - `ArtifactDto`: the core service's artifact DTO filter, which includes a
    field only for embedded content, and its CREATED state default.
  - `ContainerFunction`: a container function needs exactly one of `image`
    and `base_image`.
  - `MaterialGetter`: the python runtime's choice of material getter.

Python exceptions become `Outcomes.Result` errors, and Python dicts become
`Json.Dict` maps. The modules use `Json.Get` for `d.get(k)`, which gives
None when `k` is absent. They use `Json.GetOr` for `d.get(k, default)`: the
default applies only when `k` is absent, and a stored None is returned as
it is.

Collaborators whose bodies are not visible are function-typed parameters:
- the backend and the runtime;
- `get_uiid`;
- the spec, status and metadata builders;
- `map_uri_scheme` and `get_extension`;
- `dh.get_function`, `dh.get_workflow` and `json.dumps`;
- the metadata and CBOR converters.

Three behaviours of the code are easy to misread. The model follows the code
each time:
- **Remote task lookup.** The code takes element `[0]` of the remote task
  listing, so an empty listing fails with an index error, not a domain
  error (`RunReferences.GetTask`).
- **The task key.** The code takes the second piece of `split("://")`, so
  the key is cut at any later `://` in the reference.
- **Failures and state.** The state refusal ("Run is not in a state to
  run.") and the ERROR marking after a failed run apply only to
  local-execution runs. A remote run is never refused for its state, and
  it keeps the refreshed state when the runtime fails.

## Model

| member | source | states |
|---|---|---|
| RunLifecycle.SetState | digitalhub/entities/run/_base/entity.py:221 | afterwards the run is in the given state; every other status key and every other field is unchanged |
| RunLifecycle.SetMessage | digitalhub/entities/run/_base/entity.py:236 | afterwards the status message is the given text; every other status key and every other field is unchanged |
| RunLifecycle.BuildRun | digitalhub/entities/run/_base/entity.py:60-68 | success iff the executable lookup, the task lookup, the runtime build and the spec build all succeed; the spec build raises TypeError when the runtime's mapping holds `kind` (given twice to `build_spec`), and otherwise raises whatever the builder raises, after the runtime build and with nothing saved. On success: the spec is the one `build_spec` makes for the run's kind from the runtime's patch, the state is BUILT whatever it was before, the other status keys and the identity are unchanged, and the trace is exactly [runtime build, save of the final record]. On failure the record is unchanged and nothing is saved |
| RunLifecycle.MergeStatus | digitalhub/entities/run/_base/entity.py:98-101 | the merged status has the refreshed keys plus the runtime's keys. Runtime values override refreshed ones key by key. For a remote run the runtime's `state` is dropped first, so the state stays the refreshed one |
| RunLifecycle.ExecuteRun | digitalhub/entities/run/_base/entity.py:79-104 | every run starts with the refresh. A local run that is not ready is refused with "Run is not in a state to run." iff it is local and not BUILT/STOPPED, with no save and no runtime call. A ready local run is saved as RUNNING before the runtime runs; a remote run goes to the runtime directly. A runtime failure is followed by a refresh, ERROR (local runs only), the exception text as the message, a save and the same exception re-raised. A success saves the merged status |
| RunLifecycle.BuildThenRunIsReady | digitalhub/entities/run/_base/entity.py:67-82 | when a successful build's saved record is what the next refresh reads, `run` does not refuse it for its state |
| RunLifecycle.FirstFinished | digitalhub/entities/run/_base/entity.py:121-134 | the index of the first snapshot whose state is STOPPED, ERROR or COMPLETED; none iff no snapshot has such a state |
| RunLifecycle.WaitRun | digitalhub/entities/run/_base/entity.py:121-134 | the wait returns the run as refreshed by the first finished snapshot, after exactly as many refreshes as that snapshot's position; no earlier snapshot was finished; it runs out only when none is |
| RunLifecycle.WaitRunningThenCompleted | digitalhub/entities/run/_base/entity.py:124-134 | a RUNNING refresh followed by a COMPLETED refresh ends the wait at the second one |
| RunLifecycle.Logs | digitalhub/entities/run/_base/entity.py:145 | logs always asks the processor for this run's logs |
| RunLifecycle.Stop | digitalhub/entities/run/_base/entity.py:155-156 | no processor call iff the run executes locally, otherwise a stop of this run |
| RunLifecycle.Resume | digitalhub/entities/run/_base/entity.py:166-167 | no processor call iff the run executes locally, otherwise a resume of this run |
| RunReferences.ExecutableRef | digitalhub/entities/run/_base/entity.py:261-263 | succeeds iff the last `/`-segment of the reference contains `:`; the name and id it returns hold no `:`; otherwise an index error |
| RunReferences.ExecutableRefRecovers | digitalhub/entities/run/_base/entity.py:261-263 | for any prefix, a name and an id free of `/` and `:` are recovered exactly from `prefix/name:id` |
| RunReferences.TaskKey | digitalhub/entities/run/_base/entity.py:282 | fails iff the reference has no `://`; otherwise the key is the executable kind, `://`, then a piece containing no further `://` |
| RunReferences.TaskKind | digitalhub/entities/run/_base/entity.py:293 | the task kind holds no `://`, and when the reference has one, the reference starts with the kind followed by `://` |
| RunReferences.TaskStringPieces | digitalhub/entities/run/_base/entity.py:282 | a well-formed reference splits at `://` into exactly the task kind and `path/name:id` |
| RunReferences.TaskKeyRecovers | digitalhub/entities/run/_base/entity.py:282-293 | on a well-formed reference, the key swaps the task kind for the executable kind and keeps `path/name:id`, and the task kind is the reference's own |
| RunReferences.GetExecutable | digitalhub/entities/run/_base/entity.py:259-269 | an unparsable reference gives an index error; otherwise the entity read under the parsed name and id, in the run's project, with the entity type of the run kind's executable kind |
| RunReferences.TaskFilter | digitalhub/entities/run/_base/entity.py:294 | the remote listing filter has exactly the keys `function` (the task key) and `kind` (the task kind) |
| RunReferences.GetTask | digitalhub/entities/run/_base/entity.py:281-295 | the local path returns the first task whose `spec.function` is the key, with every task before it checked and not matching. Conversely, whenever a task matches and every earlier task is checked and does not match, that task is returned. A task without a `spec` mapping, reached before any match, raises AttributeError. "Task not found." is raised iff no task matches. The remote path returns the first listed task of the filtered listing, or an index error iff the listing is empty |
| RunReferenceExamples.ExampleExecutableRef | digitalhub/entities/run/_base/entity.py:261-263 | `job://proj/job/myfunc:abc123` gives the name `myfunc` and the id `abc123` |
| RunReferenceExamples.ExampleIsTaskString | digitalhub/entities/run/_base/entity.py:261-293 | the example reference `job://proj/job/myfunc:abc123` is in the `{kind}://{path}/{name}:{id}` format. Its task key is the executable kind, `://` and `proj/job/myfunc:abc123`, and its task kind is `job` |
| RunReferenceExamples.ExampleTaskKey | digitalhub/entities/run/_base/entity.py:282 | the example's task key keeps `proj/job/myfunc:abc123` behind the executable kind |
| RunReferenceExamples.ExampleTaskKind | digitalhub/entities/run/_base/entity.py:293 | the example's task kind is `job` |
| Json.FirstMatch | digitalhub/entities/run/_base/entity.py:287-290 | the scan returns the first item the probe accepts, with every earlier item rejected; it returns none iff every item is rejected; and it fails with the error of the first item the probe fails on, every earlier item being rejected |
| Json.FirstMatchDetermined | digitalhub/entities/run/_base/entity.py:287-290 | the first item the probe does not reject decides the scan: if it is accepted, the scan returns it; if the probe fails on it, the scan fails with that error |
| Json.KwargsBeside | sdk/sdk/entities/run/entity.py:327 | `build_spec(kind=kind, **spec)` unpacks the spec iff it is a mapping without a `kind` key, and then passes its fields unchanged; otherwise TypeError (not a mapping, or `kind` given twice) |
| Json.NatToStringValue | sdk/sdk/entities/builders/status.py:90-91 | the decimal text that `str()` gives a number reads back to that number |
| SdkStatus.ValueIsName | sdk/sdk/entities/base/status.py:14-22 | every state's value equals its name, so the value stored as the default is also a member name |
| SdkStatus.FromName | sdk/sdk/entities/builders/status.py:90 | a name is found exactly when some member carries it, and the member found carries it |
| SdkStatus.MemberNames | sdk/sdk/entities/base/status.py:9-22 | the member names are exactly the nine listed, every member is found by its own name, and `STOPPED` is not a member |
| SdkStatus.StatusFromDict | sdk/sdk/entities/base/status.py:30-59 | succeeds iff `state` is present and no key other than `state`/`message` is; the state is stored as given and the message defaults to None; anything else is a TypeError |
| SdkStatus.FromDictOfKwargs | sdk/sdk/entities/base/status.py:59 | building a status from its own keyword mapping gives the same status back |
| SdkStatus.Register | sdk/sdk/entities/builders/status.py:48 | the module now maps to the new class, and every other module keeps its class |
| SdkStatus.RegisterOverwrites | sdk/sdk/entities/builders/status.py:48 | registering a module twice leaves only the later class |
| SdkStatus.DefaultRegistry | sdk/sdk/entities/builders/status.py:114-121 | after import exactly the seven modules ARTF, DTIT, FUNC, PROJ, RUNS, TASK, WKFL are registered, each with its own status class |
| SdkStatus.DefaultRegistryIsRegistrations | sdk/sdk/entities/builders/status.py:114-121 | the import-time registry is what the seven `register` calls produce, in order, from an empty registry |
| SdkStatus.ParseArguments | sdk/sdk/entities/builders/status.py:86-92 | a missing or None state becomes `State.CREATED.value`. Otherwise parsing succeeds iff the state is a string naming a member, and the arguments then pass unchanged. Every other argument is always kept. A string that names no member gives "Invalid state: " followed by the string. A boolean or integer state gives the same message with its `str()`. A list or mapping state is unhashable and gives TypeError |
| SdkStatus.ParseArgumentsIdempotent | sdk/sdk/entities/builders/status.py:86-92 | arguments that parse once parse again to themselves: the stored default passes the membership check |
| SdkStatus.Build | sdk/sdk/entities/builders/status.py:66-69 | an unregistered module is refused with "Invalid module name: …" before the arguments are read; otherwise the registered class receives the parsed arguments, and a parse error passes through |
| SdkStatus.BuildRunStatusDefaultsToCreated | sdk/sdk/entities/builders/status.py:66-92 | with the import-time registry, a run status built without a state is a CREATED RunStatus |
| SdkRun.NewRun | sdk/sdk/entities/run/entity.py:54-61 | the kind is `run` and the status is empty, the id is generated from the given uuid, the other fields are as given, and the spec is the given one or else the default for the kind |
| SdkRun.Save | sdk/sdk/entities/run/entity.py:89-106 | fails iff the run is local. On success the payload is the serialised run minus `status`, the run adopts the backend id when the reply carries one, and the run is otherwise unchanged |
| SdkRun.ExportFilename | sdk/sdk/entities/run/entity.py:121-126 | a given name is used as is; otherwise `run_` + project + `_` + task id + `_` + id + `.yaml` |
| SdkRun.Refresh | sdk/sdk/entities/run/entity.py:142-146 | refused with "Cannot refresh local run." iff local, otherwise a read of this run |
| SdkRun.Delete | sdk/sdk/entities/run/entity.py:157-161 | refused with "Cannot delete local run." iff local, otherwise a delete of this run |
| SdkRun.Logs | sdk/sdk/entities/run/entity.py:178-179 | logs read this run's log resource, with no local-mode guard |
| SdkRun.Stop | sdk/sdk/entities/run/entity.py:167 | stop always raises NotImplementedError |
| SdkRun.SetStatus | sdk/sdk/entities/run/entity.py:253-255 | succeeds iff the new status is a mapping, which then replaces the status wholesale with nothing else changed; otherwise "Status must be a dictionary." |
| SdkRun.Entries | sdk/sdk/entities/run/entity.py:196-206 | a recorded list yields its entries; any other value yields nothing or raises |
| SdkRun.EntryIds | sdk/sdk/entities/run/entity.py:206 | succeeds iff every entry is a mapping, and then gives each entry's `id` in order; otherwise AttributeError |
| SdkRun.LookupOutputs | sdk/sdk/entities/run/entity.py:195-206 | these are the ids handed to `get_artifact_from_key`. No recorded collection gives "Run has no result …". Without a key, the result is every entry's id in order, iff every entry is a mapping. With a key, a hit is the id of the first entry with that key. Conversely, the first mapping that carries the key, after only non-matching mappings, decides: its id, or "No artifact found with key '…'." when that id is None. A non-mapping entry reached before any match raises AttributeError. A key that no entry carries gives "No artifact found with key '…'." |
| SdkRun.GetArtifacts | sdk/sdk/entities/run/entity.py:195-206 | refused for a local run (the refresh raises); otherwise the lookup over the recorded artifacts, whose ids are what `get_artifact_from_key` receives |
| SdkRun.GetDataitems | sdk/sdk/entities/run/entity.py:222-233 | refused for a local run; otherwise the same lookup over the recorded dataitems, whose ids are what `get_dataitem_from_key` receives |
| SdkRun.KeyedLookupWithinListing | sdk/sdk/entities/run/entity.py:199-206 | when the full listing succeeds, a keyed lookup either returns one of the listed ids or reports the key as not found |
| SdkRun.ParseRunDict | sdk/sdk/entities/run/entity.py:313-336 | a missing project, task_id or task gives "Project, task or task_id are not specified.". A present spec that is not a mapping, or that itself holds `kind`, gives TypeError. A builder error passes through. Conversely, with the three fields present, an unpackable spec and a builder that succeeds, the parse succeeds. On success the result has exactly six keys, the kind defaults to `run` only when absent, the uuid is `id`, and the spec is built from the stored spec (`{}` when missing) |
| SdkRun.ParseOfToDict | sdk/sdk/entities/run/entity.py:313-336 | parsing a run's own serialisation recovers its project, task id, task, kind, id and built spec. A run without a task does not parse. A spec holding `kind` gives TypeError, and a builder error passes through |
| SdkDataitem.NewDataitem | sdk/sdk/entities/dataitem/entity.py:65-84 | the kind defaults to `table`, and the metadata and spec default to the builders' output. The spec key is always `store://{project}/dataitems/{kind}/{name}:{id}`. The other spec fields are as given |
| SdkDataitem.StoreKeyIsJoin | sdk/sdk/entities/dataitem/entity.py:82-84 | the store key is its six segments (scheme, empty authority, project, `dataitems`, kind, `name:id`) joined by `/` |
| SdkDataitem.StoreKeySegments | sdk/sdk/entities/dataitem/entity.py:82-84 | when its parts are free of `/` (and the name and id of `:`), the store key splits back into exactly its six segments, and the run's executable parser recovers the name and id from it |
| SdkDataitem.Save | sdk/sdk/entities/dataitem/entity.py:104-115 | fails iff local. With no uuid it creates the item unchanged. With a uuid it updates the item under its name and that uuid, and adopts the uuid as its id |
| SdkDataitem.ExportFilename | sdk/sdk/entities/dataitem/entity.py:130-135 | a given name is used as is; otherwise `dataitem_` + project + `_` + name + `.yaml` |
| SdkDataitem.CheckLocal | sdk/sdk/entities/dataitem/entity.py:228 | true iff the path's scheme maps to `local` |
| SdkDataitem.GetExtension | sdk/sdk/entities/dataitem/entity.py:252-262 | an explicit format is returned unchanged; else a `sql` scheme gives `parquet`; else the path's extension, whose absence raises "Unknown file format …" (the only error) |
| SdkDataitem.AsDfPlan | sdk/sdk/entities/dataitem/entity.py:164-180 | no path gives "Path is not specified."; otherwise the extension is resolved, errors included, and the file is downloaded first iff the path is not local |
| SdkDataitem.ParseDataitemDict | sdk/sdk/entities/dataitem/entity.py:320-346 | a missing project or name gives "Project or name are not specified.". A spec that is not a mapping or holds `kind` gives TypeError, and a spec-builder error passes through. Then a stored metadata that is not a mapping gives TypeError, and a metadata-builder error passes through. Conversely, when neither unpacking fails and both builders succeed, the parse succeeds. On success the result has exactly seven keys: the kind defaults to `dataitem` only when absent, the spec is built from the stored spec (`{}` when None), and the metadata from the stored metadata, or from `{"name": name}` only when absent |
| SdkDataitem.ParseOfToDict | sdk/sdk/entities/dataitem/entity.py:320-346 | parsing a dataitem's own serialisation rebuilds its project, name, kind, id, embedded flag, and the spec and metadata the builders make from its own. A spec holding `kind`, or a metadata that is not a mapping, gives TypeError, and builder errors pass through |
| SdkDataitem.KindDefaultsDiffer | sdk/sdk/entities/dataitem/entity.py:69 | a dataitem constructed without a kind is a `table`, while one parsed from a mapping without a kind (line 328) is a `dataitem` |
| SdkDataitem.NullMetadataRaises | sdk/sdk/entities/dataitem/entity.py:335-336 | a stored metadata of None is not replaced by the default: unpacking it raises TypeError |
| KfpStep.Props | digitalhub_runtime_kfp/dsl.py:77-78 | the properties are exactly the keyword arguments whose value is not None |
| KfpStep.PropsConcat | digitalhub_runtime_kfp/dsl.py:77-78 | the comprehension keeps the arguments in order: the properties of `a + b` are those of `a` followed by those of `b` |
| KfpStep.PropsSnoc | digitalhub_runtime_kfp/dsl.py:77-78 | appending an argument appends it to the properties iff its value is not None |
| KfpStep.ParamArgs | digitalhub_runtime_kfp/dsl.py:116-125 | exactly two command items per parameter |
| KfpStep.ParamArgsAt | digitalhub_runtime_kfp/dsl.py:116-125 | the `i`-th parameter contributes the flag and then `k=v`, in map order |
| KfpStep.FileOutputs | digitalhub_runtime_kfp/dsl.py:98-130 | succeeds iff no output value is a pipeline parameter; otherwise the "cannot use pipeline params" exception |
| KfpStep.FileOutputsKeys | digitalhub_runtime_kfp/dsl.py:98-130 | the file outputs name exactly `run_id` and each output's value with `.` replaced by `_` |
| KfpStep.FileOutputsLastWins | digitalhub_runtime_kfp/dsl.py:129-130 | each file-output name maps to `/tmp/entity_{v}` of the last output with that name |
| KfpStep.FileOutputsRunId | digitalhub_runtime_kfp/dsl.py:129-130 | `run_id` keeps `/tmp/run_id` when no output takes that name |
| KfpStep.RunIdOutputOverwrites | digitalhub_runtime_kfp/dsl.py:98-130 | an output `run.id` replaces the run-id file output |
| KfpStep.Labels | digitalhub_runtime_kfp/dsl.py:138-145 | the labels, all prefixed `kfp-digitalhub-runtime-`, come in order: project, function/function_id or workflow/workflow_id, action. Giving both a function and a workflow fails at the workflow label (NameError) |
| KfpStep.CommonOptions | digitalhub_runtime_kfp/dsl.py:100-113 | read two items at a time after `python step.py`, the fixed command gives `--project` the project setting, `--action` the action and `--jsonprops` the JSON properties |
| KfpStep.FunctionOptions | digitalhub_runtime_kfp/dsl.py:104-107 | a function step's fixed command gives `--function` the name and `--function_id` the id, and has no workflow options |
| KfpStep.WorkflowOptions | digitalhub_runtime_kfp/dsl.py:104-107 | a workflow step's fixed command gives `--workflow` the name and `--workflow_id` the id, and has no function options |
| KfpStep.Resolve | digitalhub_runtime_kfp/dsl.py:87-96 | a named function is looked up first and wins over a workflow. An unknown one fails with "Function … not found" / "Workflow … not found". A workflow step's missing action becomes `pipeline` |
| KfpStep.Command | digitalhub_runtime_kfp/dsl.py:100-125 | the command is the twelve fixed items, then the `-ie`, `-iv` and `-oe` items, in that order |
| KfpStep.BuildStep | digitalhub_runtime_kfp/dsl.py:75-146 | the errors come in source order: neither executable given, then the function or workflow not found, then a pipeline-parameter output, then both executables given. Otherwise the step is built with the given name and the workflow image |
| KfpStep.StepCommandLayout | digitalhub_runtime_kfp/dsl.py:100-125 | a built command starts `python step.py --project P`, has `--action` and `--jsonprops` with the JSON of the non-None keyword arguments in their places, then the inputs, parameters and outputs |
| KfpStep.StepExecutable | digitalhub_runtime_kfp/dsl.py:87-145 | a built step has exactly one of function or workflow. The command and the labels carry its name and id, and the action label equals the command's action (`pipeline` by default for a workflow) |
| KfpStep.StepFileOutputs | digitalhub_runtime_kfp/dsl.py:98-136 | a built step's file outputs are those of its outputs |
| ProjectCrud.LoadProject | sdk/sdk/entities/projects/crud.py:101-105 | a name wins even when a file name is also given; the file name is used only without a name; with neither it raises "Either name or filename must be provided." |
| ProjectCrud.AssembleSpec | sdk/sdk/entities/projects/crud.py:126-132 | the spec has exactly six keys: `source` defaults to None, `context` to `./`, and the four collections to `[]`, each default used only when the key is absent |
| ProjectCrud.ReshapeProject | sdk/sdk/entities/projects/crud.py:135-147 | exactly the seven moved keys are dropped, every other key is kept as it was, and `spec` is the assembled spec |
| ProjectCrud.ReshapeIgnoresStoredSpec | sdk/sdk/entities/projects/crud.py:135-147 | the backend's own `spec` does not affect the result |
| ProjectCrud.ReshapeIgnoresStoredMetadata | sdk/sdk/entities/projects/crud.py:135-147 | the backend's own `metadata` does not affect the result |
| ProjectCrud.ReshapeKeepsDataitemsTwice | sdk/sdk/entities/projects/crud.py:132-147 | `dataitems` appears both at the top level and in the spec |
| ProjectCrud.DeleteEach | sdk/sdk/entities/projects/crud.py:189-196 | at most one call per listed object, and every call but possibly the last one has a response |
| ProjectCrud.DeleteEachCalls | sdk/sdk/entities/projects/crud.py:189-196 | the objects are deleted in listing order, each by its name |
| ProjectCrud.DeleteEachResponses | sdk/sdk/entities/projects/crud.py:189-196 | each response is the client's answer to the matching delete, in order |
| ProjectCrud.DeleteEachStops | sdk/sdk/entities/projects/crud.py:189-196 | a call left without a response is a delete that failed; the loop stops there |
| ProjectCrud.DeleteEachComplete | sdk/sdk/entities/projects/crud.py:189-196 | every object is deleted when all are named and all deletes succeed |
| ProjectCrud.DeleteCollection | sdk/sdk/entities/projects/crud.py:188-196 | a collection's calls are its listing, then deletes in that collection only. A failed listing, or one that is not a list, deletes nothing |
| ProjectCrud.CollectionDeletesListed | sdk/sdk/entities/projects/crud.py:188-196 | after the listing, the calls and responses are exactly those of the delete loop over the listed objects |
| ProjectCrud.DeleteCollectionComplete | sdk/sdk/entities/projects/crud.py:188-196 | when the listing is a list of named objects whose deletes all succeed, every listed object is deleted in listing order by its name, and each delete's answer is recorded in that order |
| ProjectCrud.DeleteCollectionsLists | sdk/sdk/entities/projects/crud.py:187-191 | every collection of the run is listed |
| ProjectCrud.DeleteCollectionsCalls | sdk/sdk/entities/projects/crud.py:187-196 | every call made while emptying a run of collections is a listing or a delete on this project, in one of those collections |
| ProjectCrud.DeleteCollectionsConcat | sdk/sdk/entities/projects/crud.py:187-196 | emptying `a + b` makes the calls and collects the responses of emptying `a`, then those of `b` |
| ProjectCrud.DeleteCollectionsIncludes | sdk/sdk/entities/projects/crud.py:187-196 | every call and response of one collection in the run is among those of the whole run |
| ProjectCrud.DeleteProject | sdk/sdk/entities/projects/crud.py:183-207 | every backend failure is swallowed, and the calls end with the project delete and then the context clean-up. Without `delete_all` it makes only those two calls. With it, the calls and responses are those of emptying artifacts, functions, workflows and dataitems, in that order, followed by the project delete's. A successful project delete's response is the last one recorded |
| ProjectCrud.DeleteAllListsEachCollection | sdk/sdk/entities/projects/crud.py:187-196 | with `delete_all` each of the four collections is listed, and every call before the project delete is a listing or a delete in one of them |
| ProjectCrud.DeleteAllDeletesEveryObject | sdk/sdk/entities/projects/crud.py:187-196 | with `delete_all`, when every collection lists named objects whose deletes succeed, every listed artifact, function, workflow and dataitem is deleted by its name, and the answer to each delete is among the responses returned |
| ProjectCrud.CallsWithinRanks | sdk/sdk/entities/projects/crud.py:187-196 | the calls made on a run of collections are ranked between the lowest collection's rank and the last collection's |
| ProjectCrud.CollectionsOrdered | sdk/sdk/entities/projects/crud.py:187-196 | collections processed in increasing rank leave their calls in order |
| ProjectCrud.DeleteProjectOrdered | sdk/sdk/entities/projects/crud.py:187-205 | every artifact call comes before any function call, then the workflow calls, then the dataitem calls, then the project delete, then the context clean-up |
| ArtifactDto.Build | src/main/java/it/smartcommunitylabdhub/core/models/builders/dtos/ArtifactDTOBuilder.java:21-87 | id, kind, project and name are always copied. Each optional field is set iff the artifact's `embedded` is present and, when building embeddable content, true. A null converted metadata becomes fresh metadata. A null state is rendered CREATED |
| ArtifactDto.EmbeddableBuildIsFullOrStub | src/main/java/it/smartcommunitylabdhub/core/models/builders/dtos/ArtifactDTOBuilder.java:27-31 | an embeddable build is the full object iff the artifact is embedded and the identity-only stub otherwise; a null `embedded` gives the stub in both builds |
| ArtifactDto.StateDefaultsToCreated | src/main/java/it/smartcommunitylabdhub/core/models/builders/dtos/ArtifactDTOBuilder.java:78-83 | an included artifact without a state is rendered CREATED |
| ContainerFunction.NewSpec | core/modules/container/digitalhub_core_container/entities/functions/spec.py:27-30 | image, base_image, command and args are stored as given, with no defaulting |
| ContainerFunction.ImageValidator | core/modules/container/digitalhub_core_container/entities/functions/spec.py:50-54 | succeeds iff exactly one of image and base_image is given, and returns base_image unchanged; otherwise "Must provide either 'image' or 'base_image'." |
| ContainerFunction.ValidateParams | core/modules/container/digitalhub_core_container/entities/functions/spec.py:50-54 | a parameter set validates iff exactly one image is given, and then it is unchanged |
| MaterialGetter.GetterForMaterial | runtimes/python/digitalhub_runtime_python/entities/run/python_run/utils.py:25-34 | ARTIFACT, DATAITEM and MODEL select their getters; any other type raises "Unhandled entity type: …" (ValueError) |
| MaterialGetter.GetterRoundTrip | runtimes/python/digitalhub_runtime_python/entities/run/python_run/utils.py:25-32 | each getter is chosen for exactly its own entity type |

## Left out

- **Backend and processor I/O.** HTTP, the client, `create_object`, `read_object`, `update_object` and `delete_object` are not modelled. Neither are the processor's reads, listings, stop and resume. Their answers are parameters: a refresh snapshot, a response id, a listing, or a `Result`.
- **Runtime bodies.** The runtime's `build` and `run` are uninterpreted function parameters that may fail. `build_runtime` and `_setup_execution` are not modelled; `_setup_execution` is an empty hook in the source's base class.
- **`wait` timing and logging.** `time.sleep`, `time.time` and the log lines are dropped. The real loop polls forever, so the model reports a finite snapshot stream that runs out as "not finished".
- **Concurrency.** Races between the local copy and the backend are out of scope. A refresh simply returns an arbitrary snapshot.
- **Opaque collaborators.** The bodies of `get_client`, `delete_context`, `get_artifact_from_key`, `get_dataitem_from_key`, `get_uiid`, `build_spec`, `build_metadata`, `map_uri_scheme`, `get_extension`, `json.dumps`, `dh.get_function`, `dh.get_workflow`, the metadata converter and the CBOR conversion are not part of this model. Each is a parameter (`build_spec` one that may raise, whose first parameter is taken to be named `kind`, as the keyword call `build_spec(kind=kind, **spec)` in the sdk's run entity shows), except that `get_client` and `delete_context` (outside any `try` in `delete_project`) are taken not to fail, and the keyed lookups stop at the ids passed to `get_artifact_from_key` and `get_dataitem_from_key`.
- **`to_dict`.** The serialised key set of an entity is assumed to be its public attributes. The base entity's `to_dict` is not part of this model.
- **Constant values.** `ARTF`, `DTIT`, `FUNC`, `PROJ`, `RUNS`, `TASK` and `WKFL` are assumed to be the plural collection names. The `EntityTypes` values are assumed to be `artifact`, `dataitem` and `model`. The `ArtifactState.CREATED` name is assumed to be `CREATED`. Those definitions are not part of this model.
- **`str()` of values.** Values interpolated into messages and commands (outputs, parameters, the exception text) are carried as already-rendered text.
- **Status rebuild.** RunLifecycle.MergeStatus models the mapping handed to `build_status` in `_set_status`, not the status object that the builder makes from it.
- SdkRun.Save: the id in the backend's reply is assumed to be a string when present. A reply with a non-string id is not modelled.
- ContainerFunction.ImageValidator: when `image` itself failed validation, pydantic leaves it out of `values`, and `values["image"]` then raises KeyError. The model assumes `image` is present.
- ArtifactDto.Build: a null `embeddable` argument, and the behaviour of the unseen `withIfElse` helper, are not modelled. The condition is taken to be `embeddable`.
- SdkDataitem.AsDfPlan: errors from `get_store`, the download, the dataframe read and `clean_all` are not modelled. The model stops at the plan of what to read.
- **Not modelled at all.** The kfp `ContainerOp` object itself, and the entity constructors reached through `from_dict` (context lookup). `_any_setter`, which copies extra keyword arguments onto an entity, does not appear in the model. Neither does `build_status`: the model stops at the mapping handed to it. Nor `run_from_parameters`, `dataitem_from_parameters`, `write_df`, `export`'s YAML writing, or `import_project`'s YAML read.
- ProjectCrud.DeleteProject: in the source, a failure of `get_client()` (crud.py line 183) or of `delete_context(name)` (line 205) propagates, because neither is inside a `try`. The model takes both to succeed, so it states nothing about those two failures.
- SdkRun.GetArtifacts: the result is the artifact ids, not the entities that `get_artifact_from_key` builds from them.
- SdkRun.GetDataitems: the result is the dataitem ids, not the entities that `get_dataitem_from_key` builds from them.
- SdkDataitem.NewDataitem: the constructor writes the store key into the spec object it is given (`self.spec.key = …`, dataitem/entity.py lines 81-84). A caller that passed its own spec therefore sees that spec's key change too. The record model returns a new dataitem and says nothing about the caller's spec object, so this aliasing is not modelled.
- KfpStep.Props: keyword arguments are modelled as an ordered list of pairs. The model does not require their keys to be distinct, as a Python dict's are.
- **Other components.** The Spring controllers and services, Jackson specs, the Java entity builders, the plain data holders and the other runtimes' registration, builder and status classes have no logic of their own here.

=== FILE: artifact_dto.dfy ===
/** The core service's `ArtifactDTOBuilder.build`: an artifact entity to its
    transfer object.  Identity fields are always copied; every other field
    only when the artifact says whether it is embedded and, for a build of
    embeddable content, only when it is. */
module ArtifactDto {
  import opened Outcomes
  import opened Json

  /** Serialised content as the entity stores it. */
  type Blob = seq<bv8>

  /** A timestamp; its representation plays no part here. */
  type Date = int

  /** The artifact entity.  `state` is the name of its state, when it has
      one; `embedded` is a nullable Boolean. */
  datatype Artifact = Artifact(
    id: string,
    kind: string,
    project: string,
    name: string,
    metadata: Blob,
    spec: Blob,
    extra: Blob,
    created: Option<Date>,
    updated: Option<Date>,
    embedded: Option<bool>,
    state: Option<string>)

  /** The transfer object; `None` stands for a field never set (null). */
  datatype ArtifactDTO = ArtifactDTO(
    id: string,
    kind: string,
    project: string,
    name: string,
    metadata: Option<Dict>,
    spec: Option<Dict>,
    extra: Option<Dict>,
    created: Option<Date>,
    updated: Option<Date>,
    embedded: Option<bool>,
    state: Option<string>)

  /** The converters the builder calls: the metadata converter (which may
      give null) and the CBOR decoding of spec and extra. */
  datatype Converters = Converters(metadata: Blob -> Option<Dict>, cbor: Blob -> Dict)

  /** A fresh `ArtifactMetadata`: no fields set. */
  const FreshMetadata: Dict := map[]

  const CreatedStateName: string := "CREATED"

  /** The filter every optional field passes through: the artifact's
      `embedded` flag is present and, when building embeddable content,
      true. */
  predicate Included(embedded: Option<bool>, embeddable: bool) {
    embedded.Some? && (!embeddable || embedded.value)
  }

  function Build(a: Artifact, embeddable: bool, conv: Converters): (dto: ArtifactDTO)
    ensures dto.id == a.id && dto.kind == a.kind && dto.project == a.project && dto.name == a.name
    ensures dto.metadata.Some? <==> Included(a.embedded, embeddable)
    ensures dto.spec.Some? <==> Included(a.embedded, embeddable)
    ensures dto.extra.Some? <==> Included(a.embedded, embeddable)
    ensures dto.state.Some? <==> Included(a.embedded, embeddable)
    ensures dto.embedded.Some? <==> Included(a.embedded, embeddable)
    ensures Included(a.embedded, embeddable) ==>
      && dto.metadata == Some(conv.metadata(a.metadata).GetOr(FreshMetadata))
      && dto.spec == Some(conv.cbor(a.spec)) && dto.extra == Some(conv.cbor(a.extra))
      && dto.created == a.created && dto.updated == a.updated
      && dto.embedded == a.embedded
      && dto.state == Some(if a.state.Some? then a.state.value else CreatedStateName)
    ensures !Included(a.embedded, embeddable) ==> dto.created.None? && dto.updated.None?
  {
    var base := ArtifactDTO(a.id, a.kind, a.project, a.name, None, None, None, None, None, None, None);
    if !Included(a.embedded, embeddable) then base
    else
      base.(metadata := Some(conv.metadata(a.metadata).GetOr(FreshMetadata)),
            spec := Some(conv.cbor(a.spec)),
            extra := Some(conv.cbor(a.extra)),
            created := a.created,
            updated := a.updated,
            embedded := a.embedded,
            state := Some(a.state.GetOr(CreatedStateName)))
  }

  /** The identity-only object an excluded artifact becomes. */
  function Stub(a: Artifact): ArtifactDTO {
    ArtifactDTO(a.id, a.kind, a.project, a.name, None, None, None, None, None, None, None)
  }

  /** Building embeddable content either gives the full object (the artifact
      is embedded) or the identity-only stub; without the flag set at all,
      both builds give the stub. */
  lemma EmbeddableBuildIsFullOrStub(a: Artifact, conv: Converters)
    ensures Build(a, true, conv) == (if a.embedded == Some(true) then Build(a, false, conv) else Stub(a))
    ensures a.embedded.None? ==> Build(a, false, conv) == Stub(a)
  {
  }

  /** Whenever a state is rendered it is never null: a stateless artifact
      reads as CREATED. */
  lemma StateDefaultsToCreated(a: Artifact, embeddable: bool, conv: Converters)
    requires a.state.None? && Included(a.embedded, embeddable)
    ensures Build(a, embeddable, conv).state == Some(CreatedStateName)
  {
  }
}

=== FILE: commons.dfy ===
/** The SDK's common constants: the names of the entity collections, used
    both as module names and as path segments of the backend API.  Their
    values are not part of this model; the plural collection names below are
    assumed. */
module Commons {
  const ARTF: string := "artifacts"
  const DTIT: string := "dataitems"
  const FUNC: string := "functions"
  const PROJ: string := "projects"
  const RUNS: string := "runs"
  const TASK: string := "tasks"
  const WKFL: string := "workflows"
}

=== FILE: container_function.dfy ===
/** The container runtime's function specification and the check its
    parameter model makes on the images. */
module ContainerFunction {
  import opened Outcomes

  const ImageMessage: string := "Must provide either 'image' or 'base_image'."

  /** `FunctionSpecContainer`: every field optional. */
  datatype FunctionSpecContainer = FunctionSpecContainer(
    image: Option<string>,
    baseImage: Option<string>,
    command: Option<string>,
    args: Option<seq<string>>)

  /** The constructor stores its arguments as given. */
  function NewSpec(image: Option<string>, baseImage: Option<string>, command: Option<string>,
                   args: Option<seq<string>>): (s: FunctionSpecContainer)
    ensures s.image == image && s.baseImage == baseImage && s.command == command && s.args == args
  {
    FunctionSpecContainer(image, baseImage, command, args)
  }

  /** `image_validator` on `base_image`: exactly one of the two images must
      be given; the base image passes through unchanged. */
  function ImageValidator(image: Option<string>, baseImage: Option<string>): (r: Result<Option<string>>)
    ensures r.Ok? <==> (image.Some? <==> baseImage.None?)
    ensures r.Ok? ==> r.value == baseImage
    ensures r.Err? ==> r.error == ValueError(ImageMessage)
  {
    if image.None? == baseImage.None? then Err(ValueError(ImageMessage)) else Ok(baseImage)
  }

  /** The parameter model after validation. */
  datatype FunctionParamsContainer = FunctionParamsContainer(
    image: Option<string>,
    baseImage: Option<string>,
    command: Option<string>,
    args: Option<seq<string>>)

  /** Validating a parameter set: the base image is checked against the
      image, the other fields are taken as they are.  A spec built from
      validated parameters therefore has exactly one of the two images. */
  function ValidateParams(p: FunctionParamsContainer): (r: Result<FunctionParamsContainer>)
    ensures r.Ok? <==> (p.image.Some? <==> p.baseImage.None?)
    ensures r.Ok? ==> r.value == p
    ensures r.Err? ==> r.error == ValueError(ImageMessage)
  {
    var baseImage :- ImageValidator(p.image, p.baseImage);
    Ok(p.(baseImage := baseImage))
  }
}

=== FILE: json.dfy ===
/** Python dictionaries and the values stored in them, plus the few dictionary
    idioms the modelled code relies on (`d.get(k)`, `d.get(k, default)`,
    a `next(...)` scan over a list of dicts, an ordered keyword dict). */
module Json {
  import opened Outcomes

  datatype Json =
    | JNull
    | JBool(b: bool)
    | JInt(i: int)
    | JStr(s: string)
    | JList(items: seq<Json>)
    | JObj(fields: map<string, Json>)

  type Dict = map<string, Json>

  /** An insertion-ordered dict (keyword arguments, `dict.items()` order). */
  type Pairs<V> = seq<(string, V)>

  /** Python `d.get(k)`: the stored value, `None` when the key is absent. */
  function Get(d: Dict, k: string): Json {
    if k in d then d[k] else JNull
  }

  /** Python `d.get(k, default)`: the default is used only when the key is
      ABSENT; a key stored with the value `None` yields `None`. */
  function GetOr(d: Dict, k: string, default: Json): Json {
    if k in d then d[k] else default
  }

  /** The keyword arguments `**v` adds to a call that also passes `name=`
      itself.  Python refuses, with a TypeError, a value that is not a
      mapping and a mapping that holds `name` as well ("got multiple values
      for keyword argument"). */
  function KwargsBeside(v: Json, name: string): (r: Result<Dict>)
    ensures r.Ok? <==> v.JObj? && name !in v.fields
    ensures r.Ok? ==> r.value == v.fields
    ensures r.Err? ==> r.error == TypeError
  {
    if v.JObj? && name !in v.fields then Ok(v.fields) else Err(TypeError)
  }

  /** Python `str(n)` for a natural number: its decimal digits. */
  function NatToString(n: nat): (s: string)
    ensures |s| >= 1
    ensures forall i :: 0 <= i < |s| ==> '0' <= s[i] <= '9'
    decreases n
  {
    var d := ['0' + (n % 10) as char];
    if n < 10 then d else NatToString(n / 10) + d
  }

  /** The number a string of decimal digits denotes, most significant first. */
  function DigitsValue(s: string): nat
    requires forall i :: 0 <= i < |s| ==> '0' <= s[i] <= '9'
    decreases |s|
  {
    if |s| == 0 then 0
    else 10 * DigitsValue(s[..|s| - 1]) + (s[|s| - 1] - '0') as nat
  }

  /** `int(str(n)) == n`: the digits read back to the number. */
  lemma {:induction false} NatToStringValue(n: nat)
    ensures DigitsValue(NatToString(n)) == n
    decreases n
  {
    var s := NatToString(n);
    if n >= 10 {
      NatToStringValue(n / 10);
      assert s[..|s| - 1] == NatToString(n / 10);
    }
  }

  /** Python `str(v)` for a scalar value. */
  function Show(v: Json): string
    requires !v.JList? && !v.JObj?
  {
    match v
    case JNull => "None"
    case JBool(b) => if b then "True" else "False"
    case JInt(i) => if i < 0 then "-" + NatToString(-i) else NatToString(i)
    case JStr(s) => s
  }

  /** Scans `items` in order, as `next(x for x in items if probe(x))` does:
      `probe` may raise on an item (it is not a dict, ...), and no item after
      the first match is probed.  The result is the index of the first match. */
  function FirstMatch(items: seq<Json>, probe: Json -> Result<bool>): (r: Result<Option<nat>>)
    ensures r.Ok? && r.value.Some? ==>
      && r.value.value < |items|
      && probe(items[r.value.value]) == Ok(true)
      && forall j :: 0 <= j < r.value.value ==> probe(items[j]) == Ok(false)
    ensures r == Ok(None) <==> forall j :: 0 <= j < |items| ==> probe(items[j]) == Ok(false)
    ensures r.Err? ==>
      exists k :: 0 <= k < |items| && probe(items[k]) == Err(r.error)
                  && forall j :: 0 <= j < k ==> probe(items[j]) == Ok(false)
    decreases |items|
  {
    if |items| == 0 then Ok(None)
    else
      match probe(items[0])
      case Err(e) => Err(e)
      case Ok(hit) =>
        if hit then Ok(Some(0))
        else
          match FirstMatch(items[1..], probe)
          case Err(e) =>
            assert probe(items[0]) == Ok(false);
            Err(e)
          case Ok(None) => Ok(None)
          case Ok(Some(i)) => Ok(Some(i + 1))
  }

  /** The scan's outcome is fixed by the first item that is not rejected: it
      is that item's index when the probe accepts it, and the probe's error
      when the probe fails on it. */
  lemma FirstMatchDetermined(items: seq<Json>, probe: Json -> Result<bool>)
    ensures forall i :: 0 <= i < |items| && probe(items[i]) == Ok(true)
                        && (forall j :: 0 <= j < i ==> probe(items[j]) == Ok(false)) ==>
      FirstMatch(items, probe) == Ok(Some(i))
    ensures forall k :: 0 <= k < |items| && probe(items[k]).Err?
                        && (forall j :: 0 <= j < k ==> probe(items[j]) == Ok(false)) ==>
      FirstMatch(items, probe) == Err(probe(items[k]).error)
  {
  }
}

=== FILE: kfp_step.dfy ===
/** `PipelineContext.step` of the KFP runtime: the container command, the
    file outputs and the pod labels of a pipeline step that runs a function
    or a workflow of the platform.  The container operation itself, the
    function and workflow lookups and the JSON encoder are parameters. */
module KfpStep {
  import opened Outcomes
  import opened Json
  import opened Strings

  const LabelPrefix: string := "kfp-digitalhub-runtime-"
  const NoExecutableMessage: string := "Either function or workflow must be provided."
  const PipelineParamOutputMessage: string := "Invalid output specification. cannot use pipeline params"

  /** The module-level settings read from the environment when the module
      is imported; either may be unset. */
  datatype Env = Env(project: Option<string>, workflowImage: Option<string>)

  /** A step argument value: a `PipelineParam` placeholder or any other
      value, each with the text `str()` gives. */
  datatype Param = Plain(text: string) | PipelineParam(text: string)

  /** A function or workflow found on the platform; the step uses its id. */
  datatype Executable = Executable(id: string)

  /** The platform lookups `get_function` and `get_workflow` (None when the
      name is not found) and `json.dumps` of an ordered dict. */
  datatype Collaborators = Collaborators(
    getFunction: string -> Option<Executable>,
    getWorkflow: string -> Option<Executable>,
    dumps: Pairs<Json> -> string)

  /** The container operation the step builds, with its labels in the order
      they are added.  Command items and label values are `None` where the
      source passes an unset setting or action through. */
  datatype Step = Step(
    name: string,
    image: Option<string>,
    command: seq<Option<string>>,
    fileOutputs: map<string, string>,
    labels: seq<(string, Option<string>)>)

  /** `{k: v for k, v in kwargs.items() if v is not None}` */
  function Props(kwargs: Pairs<Json>): (props: Pairs<Json>)
    ensures |props| <= |kwargs|
    ensures forall x :: x in props <==> x in kwargs && x.1 != JNull
    decreases |kwargs|
  {
    if |kwargs| == 0 then []
    else
      var rest := Props(kwargs[1..]);
      assert forall x :: x in kwargs <==> x == kwargs[0] || x in kwargs[1..];
      if kwargs[0].1 == JNull then rest else [kwargs[0]] + rest
  }

  /** The comprehension visits the keyword arguments in order: filtering
      `a + b` keeps the kept pairs of `a` followed by those of `b`, so every
      kept pair stays in its original position relative to the others. */
  lemma {:induction false} PropsConcat(a: Pairs<Json>, b: Pairs<Json>)
    ensures Props(a + b) == Props(a) + Props(b)
    decreases |a|
  {
    if |a| > 0 {
      assert (a + b)[0] == a[0];
      assert (a + b)[1..] == a[1..] + b;
      PropsConcat(a[1..], b);
      var head: Pairs<Json> := if a[0].1 == JNull then [] else [a[0]];
      assert Props(a) == head + Props(a[1..]);
      assert Props(a + b) == head + (Props(a[1..]) + Props(b));
      Strings.Assoc(head, Props(a[1..]), Props(b));
    } else {
      assert a + b == b;
    }
  }

  /** Appending one keyword argument appends it to the properties iff its
      value is not None. */
  lemma {:induction false} PropsSnoc(kwargs: Pairs<Json>, x: (string, Json))
    ensures Props(kwargs + [x]) == Props(kwargs) + (if x.1 == JNull then [] else [x])
  {
    PropsConcat(kwargs, [x]);
    assert [x][1..] == [];
  }

  /** `for k, v in d.items(): cmd += [flag, f"{k}={v}"]` */
  function ParamArgs(flag: string, params: Pairs<Param>): (args: seq<Option<string>>)
    ensures |args| == 2 * |params|
    decreases |params|
  {
    if |params| == 0 then []
    else [Some(flag), Some(params[0].0 + "=" + params[0].1.text)] + ParamArgs(flag, params[1..])
  }

  /** The `i`-th parameter contributes the flag and `k=v` at positions
      `2 * i` and `2 * i + 1`. */
  lemma {:induction false} ParamArgsAt(flag: string, params: Pairs<Param>, i: nat)
    requires i < |params|
    ensures ParamArgs(flag, params)[2 * i] == Some(flag)
    ensures ParamArgs(flag, params)[2 * i + 1] == Some(params[i].0 + "=" + params[i].1.text)
    decreases i
  {
    if i > 0 {
      var rest := ParamArgs(flag, params[1..]);
      ParamArgsAt(flag, params[1..], i - 1);
      assert params[1..][i - 1] == params[i];
      assert ParamArgs(flag, params)[2 * i] == rest[2 * (i - 1)];
      assert ParamArgs(flag, params)[2 * i + 1] == rest[2 * (i - 1) + 1];
    }
  }

  /** The file-output name of an output value: its text with `.` made `_`. */
  function OutputName(text: string): string {
    ReplaceChar(text, '.', '_')
  }

  /** The `file_outputs` mapping: `run_id` to `/tmp/run_id`, then, for each
      output in order, its file-output name to `/tmp/entity_{text}`, a later
      output overwriting an earlier one of the same name (and `run_id`
      itself).  A `PipelineParam` output raises. */
  function FileOutputs(outputs: Pairs<Param>): (r: Result<map<string, string>>)
    ensures r.Ok? <==> forall i :: 0 <= i < |outputs| ==> outputs[i].1.Plain?
    ensures r.Err? ==> r.error == Raised(PipelineParamOutputMessage)
    decreases |outputs|
  {
    if |outputs| == 0 then Ok(map["run_id" := "/tmp/run_id"])
    else
      var n := |outputs| - 1;
      var init := outputs[..n];
      assert forall i :: 0 <= i < n ==> init[i] == outputs[i];
      match FileOutputs(init)
      case Err(e) => Err(e)
      case Ok(m) =>
        var v := outputs[n].1;
        if v.PipelineParam? then Err(Raised(PipelineParamOutputMessage))
        else Ok(m[OutputName(v.text) := "/tmp/entity_" + v.text])
  }

  /** The file outputs name exactly `run_id` and the outputs' file-output
      names. */
  lemma {:induction false} FileOutputsKeys(outputs: Pairs<Param>)
    requires FileOutputs(outputs).Ok?
    ensures var m := FileOutputs(outputs).value;
      && "run_id" in m
      && (forall i :: 0 <= i < |outputs| ==> OutputName(outputs[i].1.text) in m)
      && forall k :: k in m ==>
           k == "run_id" || exists i :: 0 <= i < |outputs| && OutputName(outputs[i].1.text) == k
    decreases |outputs|
  {
    if |outputs| > 0 {
      var n := |outputs| - 1;
      var init := outputs[..n];
      assert forall i :: 0 <= i < n ==> init[i] == outputs[i];
      FileOutputsKeys(init);
    }
  }

  /** Each file-output name maps to the path of the LAST output with that
      name. */
  lemma {:induction false} FileOutputsLastWins(outputs: Pairs<Param>)
    requires FileOutputs(outputs).Ok?
    ensures forall i :: 0 <= i < |outputs| ==>
      (forall j :: i < j < |outputs| ==> OutputName(outputs[j].1.text) != OutputName(outputs[i].1.text)) ==>
        OutputName(outputs[i].1.text) in FileOutputs(outputs).value
        && FileOutputs(outputs).value[OutputName(outputs[i].1.text)] == "/tmp/entity_" + outputs[i].1.text
    decreases |outputs|
  {
    if |outputs| > 0 {
      var n := |outputs| - 1;
      var init := outputs[..n];
      assert forall i :: 0 <= i < n ==> init[i] == outputs[i];
      FileOutputsLastWins(init);
      var m := FileOutputs(outputs).value;
      assert m == FileOutputs(init).value[OutputName(outputs[n].1.text) := "/tmp/entity_" + outputs[n].1.text];
    }
  }

  /** `run_id` keeps its own path unless an output takes the name. */
  lemma {:induction false} FileOutputsRunId(outputs: Pairs<Param>)
    requires FileOutputs(outputs).Ok?
    requires forall i :: 0 <= i < |outputs| ==> OutputName(outputs[i].1.text) != "run_id"
    ensures "run_id" in FileOutputs(outputs).value
    ensures FileOutputs(outputs).value["run_id"] == "/tmp/run_id"
    decreases |outputs|
  {
    if |outputs| > 0 {
      var n := |outputs| - 1;
      var init := outputs[..n];
      assert forall i :: 0 <= i < n ==> init[i] == outputs[i];
      FileOutputsRunId(init);
    }
  }

  /** The labels the step adds, in order.  A step given both a function and
      a workflow never looked the workflow up, so reading its id for the
      workflow label fails. */
  function Labels(env: Env, func: Option<string>, functionId: Option<string>,
                  workflow: Option<string>, workflowId: Option<string>,
                  action: Option<string>): (r: Result<seq<(string, Option<string>)>>)
    requires func.Some? ==> functionId.Some?
    requires workflow.Some? && func.None? ==> workflowId.Some?
    ensures r.Err? <==> func.Some? && workflow.Some?
    ensures r.Err? ==> r.error == NameError("workflow_object")
    ensures r.Ok? ==>
      && |r.value| == (if func.Some? || workflow.Some? then 4 else 2)
      && r.value[0] == (LabelPrefix + "project", env.project)
      && r.value[|r.value| - 1] == (LabelPrefix + "action", action)
      && (func.Some? ==>
            r.value[1] == (LabelPrefix + "function", func)
            && r.value[2] == (LabelPrefix + "function_id", functionId))
      && (func.None? && workflow.Some? ==>
            r.value[1] == (LabelPrefix + "workflow", workflow)
            && r.value[2] == (LabelPrefix + "workflow_id", workflowId))
  {
    var project := [(LabelPrefix + "project", env.project)];
    var functionLabels :=
      if func.Some? then [(LabelPrefix + "function", func), (LabelPrefix + "function_id", functionId)]
      else [];
    if workflow.Some? && func.Some? then Err(NameError("workflow_object"))
    else
      var workflowLabels :=
        if workflow.Some? then [(LabelPrefix + "workflow", workflow), (LabelPrefix + "workflow_id", workflowId)]
        else [];
      Ok(project + functionLabels + workflowLabels + [(LabelPrefix + "action", action)])
  }

  /** The first twelve command items. */
  function CommandPrefix(env: Env, useFunction: bool, reference: string, id: string,
                         action: Option<string>, jsonProps: string): (c: seq<Option<string>>)
    ensures |c| == 12
  {
    [Some("python"), Some("step.py"),
     Some("--project"), env.project,
     Some(if useFunction then "--function" else "--workflow"), Some(reference),
     Some(if useFunction then "--function_id" else "--workflow_id"), Some(id),
     Some("--action"), action,
     Some("--jsonprops"), Some(jsonProps)]
  }

  /** The value an option takes in a flag/value argument list, reading it
      two items at a time as `step.py`'s parser would; None when the flag
      is not given. */
  function OptionValue(args: seq<Option<string>>, flag: string): Option<Option<string>>
    decreases |args|
  {
    if |args| < 2 then None
    else if args[0] == Some(flag) then Some(args[1])
    else OptionValue(args[2..], flag)
  }

  /** A flag at the even position `2 * i`, and at no earlier even
      position, takes the item after it as its value. */
  lemma {:induction false} OptionValueAt(args: seq<Option<string>>, flag: string, i: nat)
    requires 2 * i + 1 < |args| && args[2 * i] == Some(flag)
    requires forall j :: 0 <= j < i ==> args[2 * j] != Some(flag)
    ensures OptionValue(args, flag) == Some(args[2 * i + 1])
    decreases i
  {
    if i > 0 {
      assert args[2 * 0] != Some(flag);
      var rest := args[2..];
      forall j | 0 <= j < i - 1 ensures rest[2 * j] != Some(flag) {
        assert rest[2 * j] == args[2 * (j + 1)];
      }
      assert rest[2 * (i - 1)] == args[2 * i];
      OptionValueAt(rest, flag, i - 1);
    }
  }

  /** A flag at no even position of an even-length list is not given. */
  lemma {:induction false} OptionValueAbsent(args: seq<Option<string>>, flag: string)
    requires |args| % 2 == 0
    requires forall j :: 0 <= j < |args| / 2 ==> args[2 * j] != Some(flag)
    ensures OptionValue(args, flag) == None
    decreases |args|
  {
    if |args| >= 2 {
      assert args[2 * 0] != Some(flag);
      var rest := args[2..];
      forall j | 0 <= j < |rest| / 2 ensures rest[2 * j] != Some(flag) {
        assert rest[2 * j] == args[2 * (j + 1)];
      }
      OptionValueAbsent(rest, flag);
    }
  }

  /** The options every fixed command gives, whichever the executable. */
  lemma CommonOptions(env: Env, useFunction: bool, reference: string, id: string,
                      action: Option<string>, jsonProps: string)
    ensures var o := CommandPrefix(env, useFunction, reference, id, action, jsonProps)[2..];
      && OptionValue(o, "--project") == Some(env.project)
      && OptionValue(o, "--action") == Some(action)
      && OptionValue(o, "--jsonprops") == Some(Some(jsonProps))
  {
    var o := CommandPrefix(env, useFunction, reference, id, action, jsonProps)[2..];
    assert o[2 * 0] == Some("--project") && o[2 * 3] == Some("--action") && o[2 * 4] == Some("--jsonprops");
    OptionValueAt(o, "--project", 0);
    OptionValueAt(o, "--action", 3);
    OptionValueAt(o, "--jsonprops", 4);
  }

  /** The executable's options of a function step's fixed command. */
  lemma FunctionOptions(env: Env, reference: string, id: string, action: Option<string>, jsonProps: string)
    ensures var o := CommandPrefix(env, true, reference, id, action, jsonProps)[2..];
      && OptionValue(o, "--function") == Some(Some(reference))
      && OptionValue(o, "--function_id") == Some(Some(id))
      && OptionValue(o, "--workflow") == None
      && OptionValue(o, "--workflow_id") == None
  {
    var o := CommandPrefix(env, true, reference, id, action, jsonProps)[2..];
    assert o[2 * 1] == Some("--function") && o[2 * 2] == Some("--function_id");
    OptionValueAt(o, "--function", 1);
    OptionValueAt(o, "--function_id", 2);
    OptionValueAbsent(o, "--workflow");
    OptionValueAbsent(o, "--workflow_id");
  }

  /** The executable's options of a workflow step's fixed command. */
  lemma WorkflowOptions(env: Env, reference: string, id: string, action: Option<string>, jsonProps: string)
    ensures var o := CommandPrefix(env, false, reference, id, action, jsonProps)[2..];
      && OptionValue(o, "--workflow") == Some(Some(reference))
      && OptionValue(o, "--workflow_id") == Some(Some(id))
      && OptionValue(o, "--function") == None
      && OptionValue(o, "--function_id") == None
  {
    var o := CommandPrefix(env, false, reference, id, action, jsonProps)[2..];
    assert o[2 * 1] == Some("--workflow") && o[2 * 2] == Some("--workflow_id");
    OptionValueAt(o, "--workflow", 1);
    OptionValueAt(o, "--workflow_id", 2);
    OptionValueAbsent(o, "--function");
    OptionValueAbsent(o, "--function_id");
  }

  function Dict0(d: Option<Pairs<Param>>): Pairs<Param> {
    if d.Some? then d.value else []
  }

  /** The lookup of the executable the step runs, and the action it runs:
      a function is looked up whenever one is named (a workflow is then
      ignored); a workflow step's action defaults to "pipeline". */
  function Resolve(func: Option<string>, workflow: Option<string>, action: Option<string>,
                   co: Collaborators): (r: Result<(Executable, Option<string>)>)
    requires func.Some? || workflow.Some?
    ensures func.Some? ==>
      r == (if co.getFunction(func.value).Some? then Ok((co.getFunction(func.value).value, action))
            else Err(RuntimeError("Function " + func.value + " not found")))
    ensures func.None? ==>
      r == (if co.getWorkflow(workflow.value).Some?
            then Ok((co.getWorkflow(workflow.value).value, Some(if action.Some? then action.value else "pipeline")))
            else Err(RuntimeError("Workflow " + workflow.value + " not found")))
  {
    if func.Some? then
      match co.getFunction(func.value)
      case None => Err(RuntimeError("Function " + func.value + " not found"))
      case Some(f) => Ok((f, action))
    else
      match co.getWorkflow(workflow.value)
      case None => Err(RuntimeError("Workflow " + workflow.value + " not found"))
      case Some(w) => Ok((w, Some(action.GetOr("pipeline"))))
  }

  /** The whole command: the prefix, then `-ie`, `-iv` and `-oe` items. */
  function Command(env: Env, useFunction: bool, reference: string, id: string, action: Option<string>,
                   jsonProps: string, inputs: Pairs<Param>, parameters: Pairs<Param>,
                   outputs: Pairs<Param>): (c: seq<Option<string>>)
    ensures var ins := ParamArgs("-ie", inputs);
      var pars := ParamArgs("-iv", parameters);
      var outs := ParamArgs("-oe", outputs);
      && |c| == 12 + |ins| + |pars| + |outs|
      && c[..12] == CommandPrefix(env, useFunction, reference, id, action, jsonProps)
      && c[12..12 + |ins|] == ins
      && c[12 + |ins|..12 + |ins| + |pars|] == pars
      && c[12 + |ins| + |pars|..] == outs
  {
    var prefix := CommandPrefix(env, useFunction, reference, id, action, jsonProps);
    var ins := ParamArgs("-ie", inputs);
    var pars := ParamArgs("-iv", parameters);
    var outs := ParamArgs("-oe", outputs);
    var c := prefix + ins + pars + outs;
    assert c[..12] == prefix;
    assert c[12..12 + |ins|] == ins;
    assert c[12 + |ins|..12 + |ins| + |pars|] == pars;
    assert c[12 + |ins| + |pars|..] == outs;
    c
  }

  /** The arguments of one `step` call. */
  datatype StepArgs = StepArgs(
    name: string,
    func: Option<string>,
    workflow: Option<string>,
    action: Option<string>,
    inputs: Option<Pairs<Param>>,
    outputs: Option<Pairs<Param>>,
    parameters: Option<Pairs<Param>>,
    kwargs: Pairs<Json>)

  /** `PipelineContext.step`: the error cases, in the order the source
      meets them. */
  function BuildStep(env: Env, a: StepArgs, co: Collaborators): (r: Result<Step>)
    ensures a.func.None? && a.workflow.None? ==> r == Err(RuntimeError(NoExecutableMessage))
    ensures a.func.Some? && co.getFunction(a.func.value).None? ==>
      r == Err(RuntimeError("Function " + a.func.value + " not found"))
    ensures a.func.None? && a.workflow.Some? && co.getWorkflow(a.workflow.value).None? ==>
      r == Err(RuntimeError("Workflow " + a.workflow.value + " not found"))
    ensures (a.func.Some? || a.workflow.Some?) && Resolve(a.func, a.workflow, a.action, co).Ok? ==>
      if FileOutputs(Dict0(a.outputs)).Err? then r == Err(FileOutputs(Dict0(a.outputs)).error)
      else if a.func.Some? && a.workflow.Some? then r == Err(NameError("workflow_object"))
      else r.Ok?
    ensures r.Ok? ==> r.value.name == a.name && r.value.image == env.workflowImage
  {
    if a.func.None? && a.workflow.None? then Err(RuntimeError(NoExecutableMessage))
    else
      var (executable, action) :- Resolve(a.func, a.workflow, a.action, co);
      var useFunction := a.func.Some?;
      var reference := if useFunction then a.func.value else a.workflow.value;
      var command := Command(env, useFunction, reference, executable.id, action, co.dumps(Props(a.kwargs)),
                             Dict0(a.inputs), Dict0(a.parameters), Dict0(a.outputs));
      var fileOutputs :- FileOutputs(Dict0(a.outputs));
      var labels :- Labels(env, a.func, if useFunction then Some(executable.id) else None,
                           a.workflow, if useFunction then None else Some(executable.id), action);
      Ok(Step(a.name, env.workflowImage, command, fileOutputs, labels))
  }

  /** A built step is assembled from the resolved executable and action,
      the command, the file outputs and the labels. */
  lemma BuiltShape(env: Env, a: StepArgs, co: Collaborators) returns (executable: Executable, action: Option<string>)
    requires BuildStep(env, a, co).Ok?
    ensures a.func.Some? || a.workflow.Some?
    ensures Resolve(a.func, a.workflow, a.action, co) == Ok((executable, action))
    ensures FileOutputs(Dict0(a.outputs)).Ok?
    ensures var useFunction := a.func.Some?;
      var labels := Labels(env, a.func, if useFunction then Some(executable.id) else None,
                           a.workflow, if useFunction then None else Some(executable.id), action);
      && labels.Ok?
      && BuildStep(env, a, co) == Ok(Step(a.name, env.workflowImage,
           Command(env, useFunction, if useFunction then a.func.value else a.workflow.value,
                   executable.id, action, co.dumps(Props(a.kwargs)),
                   Dict0(a.inputs), Dict0(a.parameters), Dict0(a.outputs)),
           FileOutputs(Dict0(a.outputs)).value, labels.value))
  {
    var res := Resolve(a.func, a.workflow, a.action, co);
    executable := res.value.0;
    action := res.value.1;
  }

  /** A built step's command: the fixed items with the project, the action
      and the JSON of the non-None keyword arguments, then the inputs, the
      parameters and the outputs. */
  lemma StepCommandLayout(env: Env, a: StepArgs, co: Collaborators)
    requires BuildStep(env, a, co).Ok?
    ensures var c := BuildStep(env, a, co).value.command;
      var ins := ParamArgs("-ie", Dict0(a.inputs));
      var pars := ParamArgs("-iv", Dict0(a.parameters));
      var outs := ParamArgs("-oe", Dict0(a.outputs));
      && |c| == 12 + |ins| + |pars| + |outs|
      && c[0] == Some("python") && c[1] == Some("step.py")
      && c[2] == Some("--project") && c[3] == env.project
      && c[8] == Some("--action")
      && c[10] == Some("--jsonprops") && c[11] == Some(co.dumps(Props(a.kwargs)))
      && c[12..12 + |ins|] == ins
      && c[12 + |ins|..12 + |ins| + |pars|] == pars
      && c[12 + |ins| + |pars|..] == outs
  {
    var executable, action := BuiltShape(env, a, co);
    var c := BuildStep(env, a, co).value.command;
    assert c[..12][0] == c[0] && c[..12][1] == c[1] && c[..12][2] == c[2] && c[..12][3] == c[3];
    assert c[..12][8] == c[8] && c[..12][10] == c[10] && c[..12][11] == c[11];
  }

  /** A built step runs exactly one executable: a function step names the
      function and its id and keeps the action as given; a workflow step
      names the workflow and its id, with the action defaulting to
      "pipeline".  The action label carries the same action. */
  lemma StepExecutable(env: Env, a: StepArgs, co: Collaborators)
    requires BuildStep(env, a, co).Ok?
    ensures var st := BuildStep(env, a, co).value;
      && (a.func.Some? <==> a.workflow.None?)
      && |st.labels| == 4
      && st.labels[0] == (LabelPrefix + "project", env.project)
      && st.labels[3] == (LabelPrefix + "action", st.command[9])
      && (a.func.Some? ==>
            && co.getFunction(a.func.value).Some?
            && var id := co.getFunction(a.func.value).value.id;
               && st.command[4..8] == [Some("--function"), a.func, Some("--function_id"), Some(id)]
               && st.command[9] == a.action
               && st.labels[1..3] == [(LabelPrefix + "function", a.func), (LabelPrefix + "function_id", Some(id))])
      && (a.workflow.Some? ==>
            && co.getWorkflow(a.workflow.value).Some?
            && var id := co.getWorkflow(a.workflow.value).value.id;
               && st.command[4..8] == [Some("--workflow"), a.workflow, Some("--workflow_id"), Some(id)]
               && st.command[9] == Some(if a.action.Some? then a.action.value else "pipeline")
               && st.labels[1..3] == [(LabelPrefix + "workflow", a.workflow), (LabelPrefix + "workflow_id", Some(id))])
  {
    var executable, action := BuiltShape(env, a, co);
    var st := BuildStep(env, a, co).value;
    assert st.command[4..8] == st.command[..12][4..8];
    assert st.command[9] == st.command[..12][9];
  }

  /** A built step's file outputs are those of its outputs. */
  lemma StepFileOutputs(env: Env, a: StepArgs, co: Collaborators)
    requires BuildStep(env, a, co).Ok?
    ensures FileOutputs(Dict0(a.outputs)) == Ok(BuildStep(env, a, co).value.fileOutputs)
  {
  }

  /** An output named `run_id` once dots become underscores (`run.id`, say)
      takes the place of the run-id file output. */
  lemma RunIdOutputOverwrites(k: string)
    ensures FileOutputs([(k, Plain("run.id"))]) == Ok(map["run_id" := "/tmp/entity_run.id"])
  {
    var outputs := [(k, Plain("run.id"))];
    assert outputs[..0] == [];
    var base := map["run_id" := "/tmp/run_id"];
    assert FileOutputs(outputs[..0]) == Ok(base);
    assert OutputName("run.id") == "run_id";
    assert FileOutputs(outputs) == Ok(base[OutputName("run.id") := "/tmp/entity_" + "run.id"]);
    assert "/tmp/entity_" + "run.id" == "/tmp/entity_run.id";
    assert base["run_id" := "/tmp/entity_run.id"] == map["run_id" := "/tmp/entity_run.id"];
  }
}

=== FILE: material_getter.dfy ===
/** The python runtime's choice of the getter that loads a material (an
    input entity) of a given entity type. */
module MaterialGetter {
  import opened Outcomes

  /** The entity types that name materials (their string values). */
  const ARTIFACT: string := "artifact"
  const DATAITEM: string := "dataitem"
  const MODEL: string := "model"

  /** The three getters. */
  datatype Getter = GetArtifact | GetDataitem | GetModel

  /** `get_getter_for_material`. */
  function GetterForMaterial(entityType: string): (r: Result<Getter>)
    ensures entityType == ARTIFACT ==> r == Ok(GetArtifact)
    ensures entityType == DATAITEM ==> r == Ok(GetDataitem)
    ensures entityType == MODEL ==> r == Ok(GetModel)
    ensures r.Err? <==> entityType !in {ARTIFACT, DATAITEM, MODEL}
    ensures r.Err? ==> r.error == ValueError("Unhandled entity type: " + entityType)
  {
    if entityType == ARTIFACT then Ok(GetArtifact)
    else if entityType == DATAITEM then Ok(GetDataitem)
    else if entityType == MODEL then Ok(GetModel)
    else Err(ValueError("Unhandled entity type: " + entityType))
  }

  /** The entity type a getter loads. */
  function EntityTypeOf(g: Getter): string {
    match g
    case GetArtifact => ARTIFACT
    case GetDataitem => DATAITEM
    case GetModel => MODEL
  }

  /** Each getter is chosen for exactly its own entity type. */
  lemma GetterRoundTrip(g: Getter, entityType: string)
    ensures GetterForMaterial(EntityTypeOf(g)) == Ok(g)
    ensures GetterForMaterial(entityType) == Ok(g) ==> entityType == EntityTypeOf(g)
  {
  }
}

=== FILE: outcomes.dfy ===
/** Failure-carrying results shared by every module of the model.
    The source signals failure by raising Python (or Java) exceptions; here each
    exception becomes an `Error` value inside a `Result`. */
module Outcomes {

  datatype Option<+T> = None | Some(value: T) {

    /** The carried value, or `default` when there is none. */
    function GetOr(default: T): T {
      match this
      case Some(v) => v
      case None => default
    }
  }

  /** The exceptions the modelled code raises, by class. */
  datatype Error =
    | EntityError(msg: string)   // the SDK's own domain error
    | ValueError(msg: string)
    | RuntimeError(msg: string)
    | TypeError                  // a value of the wrong shape (`**x` of a non-mapping, ...)
    | AttributeError             // `.get` called on something that is not a dict
    | IndexError                 // `xs[i]` past the end of a list
    | KeyError                   // `d[k]` on a dict without `k`
    | NameError(name: string)    // a local variable read before it was assigned
    | NotImplementedError        // a method the source leaves unimplemented
    | Raised(text: string)       // a plain `Exception`, or one from an opaque collaborator, by its `str()`

  datatype Result<+T> = Ok(value: T) | Err(error: Error) {

    predicate IsFailure() {
      Err?
    }

    function PropagateFailure<U>(): Result<U>
      requires Err?
    {
      Err(error)
    }

    function Extract(): T
      requires Ok?
    {
      value
    }
  }
}

=== FILE: project_crud.dfy ===
/** Project operations of the older SDK: which source `load_project` reads,
    how `get_project` reshapes the backend's project mapping, and the order
    of the backend calls `delete_project` makes. */
module ProjectCrud {
  import opened Outcomes
  import opened Json
  import opened Commons
  import Strings

  const NoSourceMessage: string := "Either name or filename must be provided."

  /** Where `load_project` loads from. */
  datatype ProjectSource = FromBackend(name: string) | FromFile(filename: string)

  /** `load_project`: the name wins over the file name; with neither it
      raises. */
  function LoadProject(name: Option<string>, filename: Option<string>): (r: Result<ProjectSource>)
    ensures name.Some? ==> r == Ok(FromBackend(name.value))
    ensures name.None? && filename.Some? ==> r == Ok(FromFile(filename.value))
    ensures r.Err? <==> name.None? && filename.None?
    ensures r.Err? ==> r.error == EntityError(NoSourceMessage)
  {
    if name.Some? then Ok(FromBackend(name.value))
    else if filename.Some? then Ok(FromFile(filename.value))
    else Err(EntityError(NoSourceMessage))
  }

  /** The top-level keys `get_project` moves out of the backend's mapping. */
  const MovedToSpec: set<string> :=
    {"functions", "artifacts", "workflows", "source", "context", "metadata", "spec"}

  /** The spec `get_project` assembles from the backend's top-level keys. */
  function AssembleSpec(objBe: Dict): (spec: Dict)
    ensures spec.Keys == {"source", "context", "functions", "artifacts", "workflows", "dataitems"}
    ensures spec["source"] == GetOr(objBe, "source", JNull)
    ensures spec["context"] == GetOr(objBe, "context", JStr("./"))
    ensures forall k :: k in {"functions", "artifacts", "workflows", "dataitems"} ==>
      spec[k] == GetOr(objBe, k, JList([]))
  {
    map["source" := GetOr(objBe, "source", JNull),
        "context" := GetOr(objBe, "context", JStr("./")),
        "functions" := GetOr(objBe, "functions", JList([])),
        "artifacts" := GetOr(objBe, "artifacts", JList([])),
        "workflows" := GetOr(objBe, "workflows", JList([])),
        "dataitems" := GetOr(objBe, "dataitems", JList([]))]
  }

  /** `get_project`'s reshaping: the seven moved keys are dropped, every
      other key is kept as it was, and `spec` is the assembled spec. */
  function ReshapeProject(objBe: Dict): (obj: Dict)
    ensures obj.Keys == (objBe.Keys - MovedToSpec) + {"spec"}
    ensures forall k :: k in objBe && k !in MovedToSpec ==> obj[k] == objBe[k]
    ensures obj["spec"] == JObj(AssembleSpec(objBe))
  {
    var kept := map k | k in objBe && k !in MovedToSpec :: objBe[k];
    kept["spec" := JObj(AssembleSpec(objBe))]
  }

  /** The backend's own `spec` plays no part: replacing it leaves the
      reshaped project unchanged. */
  lemma ReshapeIgnoresStoredSpec(objBe: Dict, spec: Json)
    ensures ReshapeProject(objBe["spec" := spec]) == ReshapeProject(objBe)
  {
    var a := ReshapeProject(objBe["spec" := spec]);
    var c := ReshapeProject(objBe);
    assert AssembleSpec(objBe["spec" := spec]) == AssembleSpec(objBe);
    assert a.Keys == c.Keys;
  }

  /** Nor does the backend's `metadata`. */
  lemma ReshapeIgnoresStoredMetadata(objBe: Dict, metadata: Json)
    ensures ReshapeProject(objBe["metadata" := metadata]) == ReshapeProject(objBe)
  {
    var b := ReshapeProject(objBe["metadata" := metadata]);
    var c := ReshapeProject(objBe);
    assert AssembleSpec(objBe["metadata" := metadata]) == AssembleSpec(objBe);
    assert b.Keys == c.Keys;
  }

  /** `dataitems` is not among the moved keys: a project's dataitems appear
      both at the top level and in the spec. */
  lemma ReshapeKeepsDataitemsTwice(objBe: Dict)
    requires "dataitems" in objBe
    ensures var obj := ReshapeProject(objBe);
      "dataitems" in obj && obj["dataitems"] == objBe["dataitems"]
      && obj["spec"].fields["dataitems"] == objBe["dataitems"]
  {
  }

  // ---------------------------------------------------------------------
  // delete_project
  // ---------------------------------------------------------------------

  /** The backend calls and the context clean-up `delete_project` makes. */
  datatype Call =
    | ListObjects(project: string, dto: string)   // a read of `CollectionApi(project, dto)`
    | DeleteObject(project: string, dto: string, objectName: Json)
    | DeleteProjectCall(name: string)
    | DeleteContext(name: string)

  /** The client's answers; a failed call raises. */
  datatype Client = Client(
    read: string -> Result<Json>,
    deleteObject: (string, string, Json) -> Result<Json>,
    deleteProject: string -> Result<Json>)

  /** The calls made, in order, and the responses collected, in order. */
  datatype Deletion = Deletion(calls: seq<Call>, responses: seq<Json>)

  /** The collections emptied before the project itself, in order. */
  const DeletedCollections: seq<string> := [ARTF, FUNC, WKFL, DTIT]

  /** The listing path of one of the project's collections. */
  function CollectionApi(name: string, dto: string): string {
    "/api/v1/" + PROJ + "/" + name + "/" + dto
  }

  predicate Named(v: Json) {
    v.JObj? && "name" in v.fields
  }

  /** Deleting the listed objects one by one; the first object without a
      name (a KeyError or TypeError) or the first failed delete ends the
      loop, and the exception is swallowed by the caller.  Every call but
      possibly the last one answers. */
  function DeleteEach(name: string, dto: string, items: seq<Json>, client: Client): (d: Deletion)
    ensures |d.responses| <= |d.calls| <= |items|
    ensures |d.calls| <= |d.responses| + 1
    decreases |items|
  {
    if |items| == 0 || !Named(items[0]) then Deletion([], [])
    else
      var call := DeleteObject(name, dto, items[0].fields["name"]);
      match client.deleteObject(name, dto, items[0].fields["name"])
      case Err(_) => Deletion([call], [])
      case Ok(resp) =>
        var rest := DeleteEach(name, dto, items[1..], client);
        Deletion([call] + rest.calls, [resp] + rest.responses)
  }

  /** The `i`-th call deletes the `i`-th listed object, by its name. */
  lemma {:induction false} DeleteEachCalls(name: string, dto: string, items: seq<Json>, client: Client)
    ensures var d := DeleteEach(name, dto, items, client);
      forall i :: 0 <= i < |d.calls| ==>
        Named(items[i]) && d.calls[i] == DeleteObject(name, dto, items[i].fields["name"])
    decreases |items|
  {
    if |items| > 0 && Named(items[0]) && client.deleteObject(name, dto, items[0].fields["name"]).Ok? {
      var d := DeleteEach(name, dto, items, client);
      var rest := DeleteEach(name, dto, items[1..], client);
      DeleteEachCalls(name, dto, items[1..], client);
      forall i | 1 <= i < |d.calls|
        ensures Named(items[i]) && d.calls[i] == DeleteObject(name, dto, items[i].fields["name"])
      {
        assert d.calls[i] == rest.calls[i - 1];
        assert items[i] == items[1..][i - 1];
      }
    }
  }

  /** The `i`-th response is what the client answered to the `i`-th delete. */
  lemma {:induction false} DeleteEachResponses(name: string, dto: string, items: seq<Json>, client: Client)
    ensures var d := DeleteEach(name, dto, items, client);
      forall i :: 0 <= i < |d.responses| ==>
        Named(items[i]) && client.deleteObject(name, dto, items[i].fields["name"]) == Ok(d.responses[i])
    decreases |items|
  {
    if |items| > 0 && Named(items[0]) && client.deleteObject(name, dto, items[0].fields["name"]).Ok? {
      var d := DeleteEach(name, dto, items, client);
      var rest := DeleteEach(name, dto, items[1..], client);
      DeleteEachResponses(name, dto, items[1..], client);
      forall i | 1 <= i < |d.responses|
        ensures Named(items[i]) && client.deleteObject(name, dto, items[i].fields["name"]) == Ok(d.responses[i])
      {
        assert d.responses[i] == rest.responses[i - 1];
        assert items[i] == items[1..][i - 1];
      }
    }
  }

  /** A call left without a response is a delete the client refused. */
  lemma {:induction false} DeleteEachStops(name: string, dto: string, items: seq<Json>, client: Client)
    ensures var d := DeleteEach(name, dto, items, client);
      |d.calls| == |d.responses| + 1 ==>
        Named(items[|d.responses|]) && client.deleteObject(name, dto, items[|d.responses|].fields["name"]).Err?
    decreases |items|
  {
    if |items| > 0 && Named(items[0]) && client.deleteObject(name, dto, items[0].fields["name"]).Ok? {
      var d := DeleteEach(name, dto, items, client);
      var rest := DeleteEach(name, dto, items[1..], client);
      DeleteEachStops(name, dto, items[1..], client);
      assert |d.responses| == |rest.responses| + 1;
      if |d.calls| == |d.responses| + 1 {
        assert items[|d.responses|] == items[1..][|rest.responses|];
      }
    }
  }

  /** The loop goes through the whole listing as long as the objects are
      named and the deletes succeed. */
  lemma {:induction false} DeleteEachComplete(name: string, dto: string, items: seq<Json>, client: Client)
    requires forall i :: 0 <= i < |items| ==>
      Named(items[i]) && client.deleteObject(name, dto, items[i].fields["name"]).Ok?
    ensures |DeleteEach(name, dto, items, client).responses| == |items|
    decreases |items|
  {
    if |items| > 0 {
      assert forall i :: 1 <= i < |items| ==> items[1..][i - 1] == items[i];
      DeleteEachComplete(name, dto, items[1..], client);
    }
  }

  /** The objects a collection's listing yields to the delete loop: the
      items of a listed list, and none otherwise. */
  function Listed(name: string, dto: string, client: Client): seq<Json> {
    var listing := client.read(CollectionApi(name, dto));
    if listing.Ok? && listing.value.JList? then listing.value.items else []
  }

  /** A collection whose listing succeeds with a list of named objects, each
      of which the client deletes. */
  predicate Deletable(name: string, dto: string, client: Client) {
    && client.read(CollectionApi(name, dto)).Ok?
    && client.read(CollectionApi(name, dto)).value.JList?
    && forall i :: 0 <= i < |Listed(name, dto, client)| ==>
         Named(Listed(name, dto, client)[i])
         && client.deleteObject(name, dto, Listed(name, dto, client)[i].fields["name"]).Ok?
  }

  /** One collection: list it, then delete its objects.  A failed listing
      ends it; a listing that is not a list deletes nothing (iterating a
      string or a dict yields strings, whose `["name"]` raises; an int is
      not iterable). */
  function DeleteCollection(name: string, dto: string, client: Client): (d: Deletion)
    ensures |d.calls| >= 1 && d.calls[0] == ListObjects(name, dto)
    ensures forall i :: 1 <= i < |d.calls| ==>
      d.calls[i].DeleteObject? && d.calls[i].project == name && d.calls[i].dto == dto
    ensures forall i :: 0 <= i < |d.calls| ==> Rank(d.calls[i]) == CollectionRank(dto)
    ensures |d.responses| <= |d.calls| - 1
    ensures client.read(CollectionApi(name, dto)).Err? ==> d == Deletion([ListObjects(name, dto)], [])
    ensures client.read(CollectionApi(name, dto)).Ok? && !client.read(CollectionApi(name, dto)).value.JList? ==>
      d == Deletion([ListObjects(name, dto)], [])
  {
    var list := ListObjects(name, dto);
    match client.read(CollectionApi(name, dto))
    case Err(_) => Deletion([list], [])
    case Ok(objs) =>
      if objs.JList? then
        var each := DeleteEach(name, dto, objs.items, client);
        DeleteEachCalls(name, dto, objs.items, client);
        Deletion([list] + each.calls, each.responses)
      else Deletion([list], [])
  }

  /** After the listing, a collection's calls and responses are those of the
      delete loop over the objects the listing yields. */
  lemma CollectionDeletesListed(name: string, dto: string, client: Client)
    ensures DeleteCollection(name, dto, client)
      == Deletion([ListObjects(name, dto)] + DeleteEach(name, dto, Listed(name, dto, client), client).calls,
                  DeleteEach(name, dto, Listed(name, dto, client), client).responses)
  {
  }

  /** In a deletable collection every listed object is deleted, in listing
      order and by its name, and each delete's answer is recorded. */
  lemma DeleteCollectionComplete(name: string, dto: string, client: Client)
    requires Deletable(name, dto, client)
    ensures |DeleteCollection(name, dto, client).calls| == |Listed(name, dto, client)| + 1
    ensures |DeleteCollection(name, dto, client).responses| == |Listed(name, dto, client)|
    ensures forall i :: 0 <= i < |Listed(name, dto, client)| ==>
      && DeleteCollection(name, dto, client).calls[i + 1]
         == DeleteObject(name, dto, Listed(name, dto, client)[i].fields["name"])
      && client.deleteObject(name, dto, Listed(name, dto, client)[i].fields["name"])
         == Ok(DeleteCollection(name, dto, client).responses[i])
  {
    var items := Listed(name, dto, client);
    var d := DeleteCollection(name, dto, client);
    var each := DeleteEach(name, dto, items, client);
    CollectionDeletesListed(name, dto, client);
    DeleteEachComplete(name, dto, items, client);
    DeleteEachCalls(name, dto, items, client);
    DeleteEachResponses(name, dto, items, client);
    assert d.calls == [ListObjects(name, dto)] + each.calls;
    forall i | 0 <= i < |items|
      ensures d.calls[i + 1] == DeleteObject(name, dto, items[i].fields["name"])
    {
      assert d.calls[i + 1] == each.calls[i];
    }
  }

  /** The collections emptied in turn, each one's calls and responses
      after those of the collections before it. */
  function DeleteCollections(name: string, dtos: seq<string>, client: Client): (d: Deletion)
    ensures |dtos| == 1 ==> d == DeleteCollection(name, dtos[0], client)
    decreases |dtos|
  {
    if |dtos| == 0 then Deletion([], [])
    else
      var first := DeleteCollection(name, dtos[0], client);
      var rest := DeleteCollections(name, dtos[1..], client);
      Deletion(first.calls + rest.calls, first.responses + rest.responses)
  }

  /** Each collection of the run is listed. */
  lemma {:induction false} DeleteCollectionsLists(name: string, dtos: seq<string>, client: Client)
    ensures forall k :: 0 <= k < |dtos| ==> ListObjects(name, dtos[k]) in DeleteCollections(name, dtos, client).calls
    decreases |dtos|
  {
    if |dtos| > 0 {
      var first := DeleteCollection(name, dtos[0], client);
      var rest := DeleteCollections(name, dtos[1..], client);
      var d := DeleteCollections(name, dtos, client);
      assert d.calls == first.calls + rest.calls;
      DeleteCollectionsLists(name, dtos[1..], client);
      forall k | 0 <= k < |dtos| ensures ListObjects(name, dtos[k]) in d.calls {
        if k == 0 {
          assert d.calls[0] == first.calls[0];
        } else {
          assert dtos[k] == dtos[1..][k - 1];
          assert ListObjects(name, dtos[k]) in rest.calls;
        }
      }
    }
  }

  /** Every call made is a listing or a delete in one of the collections,
      on this project. */
  lemma {:induction false} DeleteCollectionsCalls(name: string, dtos: seq<string>, client: Client)
    ensures forall i :: 0 <= i < |DeleteCollections(name, dtos, client).calls| ==>
      && (DeleteCollections(name, dtos, client).calls[i].ListObjects?
          || DeleteCollections(name, dtos, client).calls[i].DeleteObject?)
      && DeleteCollections(name, dtos, client).calls[i].project == name
      && DeleteCollections(name, dtos, client).calls[i].dto in dtos
    decreases |dtos|
  {
    if |dtos| > 0 {
      var first := DeleteCollection(name, dtos[0], client);
      var rest := DeleteCollections(name, dtos[1..], client);
      var calls := DeleteCollections(name, dtos, client).calls;
      assert calls == first.calls + rest.calls;
      DeleteCollectionsCalls(name, dtos[1..], client);
      forall i | 0 <= i < |calls|
        ensures (calls[i].ListObjects? || calls[i].DeleteObject?) && calls[i].project == name && calls[i].dto in dtos
      {
        if i < |first.calls| {
          assert calls[i] == first.calls[i];
        } else {
          var c := rest.calls[i - |first.calls|];
          assert calls[i] == c;
          assert c.dto in dtos[1..];
          assert forall x :: x in dtos[1..] ==> x in dtos;
        }
      }
    }
  }

  /** Every call and every response of one collection of the run is among
      those of the whole run. */
  lemma {:induction false} DeleteCollectionsIncludes(name: string, dtos: seq<string>, client: Client, k: nat)
    requires k < |dtos|
    ensures forall c :: c in DeleteCollection(name, dtos[k], client).calls ==>
      c in DeleteCollections(name, dtos, client).calls
    ensures forall v :: v in DeleteCollection(name, dtos[k], client).responses ==>
      v in DeleteCollections(name, dtos, client).responses
    decreases k
  {
    var first := DeleteCollection(name, dtos[0], client);
    var rest := DeleteCollections(name, dtos[1..], client);
    assert DeleteCollections(name, dtos, client) == Deletion(first.calls + rest.calls, first.responses + rest.responses);
    if k > 0 {
      DeleteCollectionsIncludes(name, dtos[1..], client, k - 1);
      assert dtos[1..][k - 1] == dtos[k];
    }
  }

  /** Emptying `a` and then `b` is emptying `a + b`: the calls and the
      responses are those of `a` followed by those of `b`. */
  lemma {:induction false} DeleteCollectionsConcat(name: string, a: seq<string>, b: seq<string>, client: Client)
    ensures DeleteCollections(name, a + b, client)
      == Deletion(DeleteCollections(name, a, client).calls + DeleteCollections(name, b, client).calls,
                  DeleteCollections(name, a, client).responses + DeleteCollections(name, b, client).responses)
    decreases |a|
  {
    if |a| == 0 {
      assert a + b == b;
    } else {
      var first := DeleteCollection(name, a[0], client);
      var restA := DeleteCollections(name, a[1..], client);
      var bb := DeleteCollections(name, b, client);
      assert (a + b)[0] == a[0];
      assert (a + b)[1..] == a[1..] + b;
      DeleteCollectionsConcat(name, a[1..], b, client);
      assert DeleteCollections(name, a + b, client)
        == Deletion(first.calls + (restA.calls + bb.calls), first.responses + (restA.responses + bb.responses));
      assert DeleteCollections(name, a, client) == Deletion(first.calls + restA.calls, first.responses + restA.responses);
      Strings.Assoc(first.calls, restA.calls, bb.calls);
      Strings.Assoc(first.responses, restA.responses, bb.responses);
    }
  }

  /** `delete_project`: with `deleteAll`, the artifacts, functions,
      workflows and dataitems first; then the project (its failure is
      swallowed too); finally the local context. */
  function DeleteProject(name: string, deleteAll: bool, client: Client): (d: Deletion)
    ensures |d.calls| >= 2
    ensures d.calls[|d.calls| - 2..] == [DeleteProjectCall(name), DeleteContext(name)]
    ensures !deleteAll ==>
      d == Deletion([DeleteProjectCall(name), DeleteContext(name)],
                    if client.deleteProject(name).Ok? then [client.deleteProject(name).value] else [])
    ensures deleteAll ==>
      && d.calls == DeleteCollections(name, DeletedCollections, client).calls
                    + [DeleteProjectCall(name), DeleteContext(name)]
      && d.responses == DeleteCollections(name, DeletedCollections, client).responses
                        + (if client.deleteProject(name).Ok? then [client.deleteProject(name).value] else [])
    ensures client.deleteProject(name).Ok? ==>
      |d.responses| >= 1 && d.responses[|d.responses| - 1] == client.deleteProject(name).value
  {
    var objects := if deleteAll then DeleteCollections(name, DeletedCollections, client) else Deletion([], []);
    var project := client.deleteProject(name);
    Deletion(objects.calls + [DeleteProjectCall(name), DeleteContext(name)],
             objects.responses + (if project.Ok? then [project.value] else []))
  }

  /** With `deleteAll` each of the four collections is listed, and every call
      before the project delete is a listing or a delete in one of them. */
  lemma DeleteAllListsEachCollection(name: string, client: Client)
    ensures var calls := DeleteProject(name, true, client).calls;
      && (forall k :: 0 <= k < |DeletedCollections| ==> ListObjects(name, DeletedCollections[k]) in calls)
      && forall i :: 0 <= i < |calls| - 2 ==>
           (calls[i].ListObjects? || calls[i].DeleteObject?) && calls[i].project == name
           && calls[i].dto in DeletedCollections
  {
    DeleteCollectionsLists(name, DeletedCollections, client);
    DeleteCollectionsCalls(name, DeletedCollections, client);
    var objects := DeleteCollections(name, DeletedCollections, client).calls;
    var calls := DeleteProject(name, true, client).calls;
    assert forall i :: 0 <= i < |objects| ==> calls[i] == objects[i];
    forall k | 0 <= k < |DeletedCollections| ensures ListObjects(name, DeletedCollections[k]) in calls {
      var j :| 0 <= j < |objects| && objects[j] == ListObjects(name, DeletedCollections[k]);
      assert calls[j] == objects[j];
    }
  }

  /** With `deleteAll`, when every collection is deletable, every listed
      object of the artifacts, functions, workflows and dataitems is deleted
      by its name, and the client's answer to that delete is recorded. */
  lemma DeleteAllDeletesEveryObject(name: string, client: Client)
    requires forall k :: 0 <= k < |DeletedCollections| ==> Deletable(name, DeletedCollections[k], client)
    ensures forall k, i :: 0 <= k < |DeletedCollections| && Deletable(name, DeletedCollections[k], client)
                           && 0 <= i < |Listed(name, DeletedCollections[k], client)| ==>
      && DeleteObject(name, DeletedCollections[k], Listed(name, DeletedCollections[k], client)[i].fields["name"])
         in DeleteProject(name, true, client).calls
      && client.deleteObject(name, DeletedCollections[k], Listed(name, DeletedCollections[k], client)[i].fields["name"]).value
         in DeleteProject(name, true, client).responses
  {
    var all := DeleteCollections(name, DeletedCollections, client);
    var d := DeleteProject(name, true, client);
    forall k, i | 0 <= k < |DeletedCollections| && Deletable(name, DeletedCollections[k], client)
                  && 0 <= i < |Listed(name, DeletedCollections[k], client)|
      ensures DeleteObject(name, DeletedCollections[k], Listed(name, DeletedCollections[k], client)[i].fields["name"])
              in d.calls
      ensures client.deleteObject(name, DeletedCollections[k], Listed(name, DeletedCollections[k], client)[i].fields["name"]).value
              in d.responses
    {
      var dto := DeletedCollections[k];
      var one := DeleteCollection(name, dto, client);
      DeleteCollectionComplete(name, dto, client);
      DeleteCollectionsIncludes(name, DeletedCollections, client, k);
      assert one.calls[i + 1] in one.calls;
      assert one.responses[i] in one.responses;
      assert one.calls[i + 1] in all.calls;
      assert one.responses[i] in all.responses;
    }
  }

  /** The position of a collection in the deletion order. */
  function CollectionRank(dto: string): nat {
    if dto == ARTF then 0 else if dto == FUNC then 1 else if dto == WKFL then 2 else if dto == DTIT then 3 else 4
  }

  /** The position of a call in the deletion order: the four collections in
      turn, then the project, then the context. */
  function Rank(c: Call): nat {
    match c
    case ListObjects(_, dto) => CollectionRank(dto)
    case DeleteObject(_, dto, _) => CollectionRank(dto)
    case DeleteProjectCall(_) => 5
    case DeleteContext(_) => 6
  }

  predicate Ordered(calls: seq<Call>) {
    forall i, j :: 0 <= i < j < |calls| ==> Rank(calls[i]) <= Rank(calls[j])
  }

  lemma OrderedConcat(a: seq<Call>, b: seq<Call>)
    requires Ordered(a) && Ordered(b)
    requires forall i, j :: 0 <= i < |a| && 0 <= j < |b| ==> Rank(a[i]) <= Rank(b[j])
    ensures Ordered(a + b)
  {
    forall i, j | 0 <= i < j < |a + b| ensures Rank((a + b)[i]) <= Rank((a + b)[j]) {
      if j < |a| {
        assert (a + b)[i] == a[i] && (a + b)[j] == a[j];
      } else if i < |a| {
        assert (a + b)[i] == a[i] && (a + b)[j] == b[j - |a|];
      } else {
        assert (a + b)[i] == b[i - |a|] && (a + b)[j] == b[j - |a|];
      }
    }
  }

  /** Every call made on collections ranked at least `lo` is ranked between
      `lo` and the last collection's rank. */
  lemma {:induction false} CallsWithinRanks(name: string, dtos: seq<string>, client: Client, lo: nat)
    requires forall i :: 0 <= i < |dtos| ==> lo <= CollectionRank(dtos[i])
    ensures forall i :: 0 <= i < |DeleteCollections(name, dtos, client).calls| ==>
      lo <= Rank(DeleteCollections(name, dtos, client).calls[i]) <= 4
    decreases |dtos|
  {
    if |dtos| > 0 {
      var first := DeleteCollection(name, dtos[0], client).calls;
      var rest := DeleteCollections(name, dtos[1..], client).calls;
      assert forall i :: 1 <= i < |dtos| ==> dtos[1..][i - 1] == dtos[i];
      CallsWithinRanks(name, dtos[1..], client, lo);
      assert DeleteCollections(name, dtos, client).calls == first + rest;
      assert lo <= CollectionRank(dtos[0]) <= 4;
      forall i | 0 <= i < |first + rest| ensures lo <= Rank((first + rest)[i]) <= 4 {
        if i < |first| {
          assert (first + rest)[i] == first[i];
        } else {
          assert (first + rest)[i] == rest[i - |first|];
        }
      }
    }
  }

  /** Collections taken in increasing rank leave their calls in order. */
  lemma {:induction false} CollectionsOrdered(name: string, dtos: seq<string>, client: Client)
    requires forall i, j :: 0 <= i < j < |dtos| ==> CollectionRank(dtos[i]) < CollectionRank(dtos[j])
    ensures Ordered(DeleteCollections(name, dtos, client).calls)
    decreases |dtos|
  {
    if |dtos| > 0 {
      var first := DeleteCollection(name, dtos[0], client).calls;
      var rest := DeleteCollections(name, dtos[1..], client).calls;
      assert forall i :: 1 <= i < |dtos| ==> dtos[1..][i - 1] == dtos[i];
      CollectionsOrdered(name, dtos[1..], client);
      assert Ordered(first);
      if |dtos| > 1 {
        var tail := dtos[1..];
        forall i | 0 <= i < |tail| ensures CollectionRank(dtos[1]) <= CollectionRank(tail[i]) {
          assert tail[i] == dtos[i + 1];
        }
        CallsWithinRanks(name, tail, client, CollectionRank(dtos[1]));
        assert CollectionRank(dtos[0]) < CollectionRank(dtos[1]);
        forall i, j | 0 <= i < |first| && 0 <= j < |rest| ensures Rank(first[i]) <= Rank(rest[j]) {
        }
      } else {
        assert rest == [];
      }
      OrderedConcat(first, rest);
      assert DeleteCollections(name, dtos, client).calls == first + rest;
    }
  }

  /** The calls come in the documented order: every call on the artifacts
      before any on the functions, those before the workflows', those before
      the dataitems', then the project delete and the context clean-up. */
  lemma DeleteProjectOrdered(name: string, deleteAll: bool, client: Client)
    ensures Ordered(DeleteProject(name, deleteAll, client).calls)
  {
    var tail := [DeleteProjectCall(name), DeleteContext(name)];
    var objects := if deleteAll then DeleteCollections(name, DeletedCollections, client).calls else [];
    assert CollectionRank(ARTF) == 0 && CollectionRank(FUNC) == 1;
    assert CollectionRank(WKFL) == 2 && CollectionRank(DTIT) == 3;
    CollectionsOrdered(name, DeletedCollections, client);
    CallsWithinRanks(name, DeletedCollections, client, 0);
    assert Ordered(tail);
    forall i, j | 0 <= i < |objects| && 0 <= j < |tail| ensures Rank(objects[i]) <= Rank(tail[j]) {
    }
    OrderedConcat(objects, tail);
  }
}

=== FILE: run_lifecycle.dfy ===
/** The Run lifecycle: `build`, `run`, `wait`, `stop`, `resume` and `logs` of
    the Run entity, as a state machine over an abstract backend (each refresh
    returns whatever copy the backend holds) and an abstract runtime (which
    may fail).  Operations are functions that return the final record and
    the ordered trace of their effects on the backend and the runtime. */
module RunLifecycle {
  import opened Outcomes
  import opened Json
  import opened RunReferences

  /** The run states the lifecycle reads or writes; each is stored in the
      status mapping as the string of its name. */
  datatype State = CREATED | BUILT | RUNNING | STOPPED | ERROR | COMPLETED

  function StateName(s: State): string {
    match s
    case CREATED => "CREATED"
    case BUILT => "BUILT"
    case RUNNING => "RUNNING"
    case STOPPED => "STOPPED"
    case ERROR => "ERROR"
    case COMPLETED => "COMPLETED"
  }

  /** The part of a run spec the lifecycle reads; `fields` is the rest. */
  datatype RunSpec = RunSpec(task: string, localExecution: bool, fields: Dict)

  /** A Run: identity, kind, spec, and its status as the mapping
      `status.to_dict()` gives. */
  datatype Run = Run(project: string, id: string, kind: string, spec: RunSpec, status: Dict)

  /** What a refresh reads from the backend: its current spec and status. */
  datatype Snapshot = Snapshot(spec: RunSpec, status: Dict)

  function Refresh(r: Run, snap: Snapshot): Run {
    r.(spec := snap.spec, status := snap.status)
  }

  predicate InState(r: Run, s: State) {
    Get(r.status, "state") == JStr(StateName(s))
  }

  /** `_set_state`: the run is in state `s` afterwards, and every other
      status key and every other field is as it was. */
  function SetState(r: Run, s: State): (r': Run)
    ensures InState(r', s)
    ensures r'.status.Keys == r.status.Keys + {"state"}
    ensures forall k :: k in r.status && k != "state" ==> r'.status[k] == r.status[k]
    ensures r'.(status := r.status) == r
  {
    r.(status := r.status["state" := JStr(StateName(s))])
  }

  /** `_set_message`: the status message is `message` afterwards, and every
      other status key and every other field is as it was. */
  function SetMessage(r: Run, message: string): (r': Run)
    ensures Get(r'.status, "message") == JStr(message)
    ensures r'.status.Keys == r.status.Keys + {"message"}
    ensures forall k :: k in r.status && k != "message" ==> r'.status[k] == r.status[k]
    ensures r'.(status := r.status) == r
  {
    r.(status := r.status["message" := JStr(message)])
  }

  /** `_is_ready_to_run`: only a BUILT or a STOPPED run may start. */
  predicate IsReadyToRun(r: Run) {
    InState(r, BUILT) || InState(r, STOPPED)
  }

  /** The states `wait` stops at. */
  predicate IsFinished(status: Dict) {
    || Get(status, "state") == JStr(StateName(STOPPED))
    || Get(status, "state") == JStr(StateName(ERROR))
    || Get(status, "state") == JStr(StateName(COMPLETED))
  }

  /** An observable step of an operation, in the order it happens. */
  datatype Effect =
    | Refreshed(snapshot: Snapshot)                       // the local copy is replaced by the backend's
    | Saved(record: Run)                                  // the record is written to the backend
    | RuntimeBuilt(executable: Json, task: Json, input: Run)  // the runtime computes a spec
    | RuntimeRan(input: Run)                              // the runtime executes the run

  /** What the runtime's `run` did: returned a status patch, or raised. */
  datatype RuntimeOutcome = Returned(status: Dict) | Failed(text: string)

  /** The result the caller sees (the run, or the exception raised), the
      in-memory record afterwards, and the effects in order. */
  datatype Outcome = Outcome(result: Result<Run>, final: Run, trace: seq<Effect>)

  const NotReadyMessage: string := "Run is not in a state to run."

  /** `build`: resolve the executable and the task, let the runtime compute
      the new spec from them and the run, build the spec for the run's kind
      from it (`build_spec(kind, **new_spec)`), force the state to BUILT
      whatever it was, and save.  A failing lookup, runtime build or spec
      build raises before anything changes: the spec build raises TypeError
      when the runtime's mapping itself holds `kind`, and otherwise whatever
      `buildSpec` raises. */
  function BuildRun(r: Run, ctx: Context, runtimeBuild: (Json, Json, Run) -> Result<Dict>,
                    buildSpec: (string, Dict) -> Result<RunSpec>): (o: Outcome)
    ensures o.result.Ok? <==>
      && GetExecutable(r.project, r.kind, r.spec.task, ctx).Ok?
      && GetTask(r.project, r.kind, r.spec.task, ctx).Ok?
      && runtimeBuild(GetExecutable(r.project, r.kind, r.spec.task, ctx).value,
                      GetTask(r.project, r.kind, r.spec.task, ctx).value, r).Ok?
      && "kind" !in runtimeBuild(GetExecutable(r.project, r.kind, r.spec.task, ctx).value,
                                 GetTask(r.project, r.kind, r.spec.task, ctx).value, r).value
      && buildSpec(r.kind, runtimeBuild(GetExecutable(r.project, r.kind, r.spec.task, ctx).value,
                                        GetTask(r.project, r.kind, r.spec.task, ctx).value, r).value).Ok?
    ensures o.result.Ok? ==>
      var exe := GetExecutable(r.project, r.kind, r.spec.task, ctx).value;
      var task := GetTask(r.project, r.kind, r.spec.task, ctx).value;
      && o.result.value == o.final
      && InState(o.final, BUILT)
      && Ok(o.final.spec) == buildSpec(r.kind, runtimeBuild(exe, task, r).value)
      && (forall k :: k != "state" ==> (k in o.final.status <==> k in r.status))
      && (forall k :: k in r.status && k != "state" ==> o.final.status[k] == r.status[k])
      && o.final.(spec := r.spec, status := r.status) == r
      && o.trace == [RuntimeBuilt(exe, task, r), Saved(o.final)]
    ensures o.result.Err? ==> o.final == r && forall i :: 0 <= i < |o.trace| ==> !o.trace[i].Saved?
    ensures GetExecutable(r.project, r.kind, r.spec.task, ctx).Ok?
         && GetTask(r.project, r.kind, r.spec.task, ctx).Ok?
         && runtimeBuild(GetExecutable(r.project, r.kind, r.spec.task, ctx).value,
                         GetTask(r.project, r.kind, r.spec.task, ctx).value, r).Ok?
         && "kind" in runtimeBuild(GetExecutable(r.project, r.kind, r.spec.task, ctx).value,
                                   GetTask(r.project, r.kind, r.spec.task, ctx).value, r).value
         ==> o.result == Err(TypeError)
    ensures GetExecutable(r.project, r.kind, r.spec.task, ctx).Ok?
         && GetTask(r.project, r.kind, r.spec.task, ctx).Ok?
         && runtimeBuild(GetExecutable(r.project, r.kind, r.spec.task, ctx).value,
                         GetTask(r.project, r.kind, r.spec.task, ctx).value, r).Ok?
         && "kind" !in runtimeBuild(GetExecutable(r.project, r.kind, r.spec.task, ctx).value,
                                    GetTask(r.project, r.kind, r.spec.task, ctx).value, r).value
         && buildSpec(r.kind, runtimeBuild(GetExecutable(r.project, r.kind, r.spec.task, ctx).value,
                                           GetTask(r.project, r.kind, r.spec.task, ctx).value, r).value).Err?
         ==> && o.result == Err(buildSpec(r.kind, runtimeBuild(GetExecutable(r.project, r.kind, r.spec.task, ctx).value,
                                                               GetTask(r.project, r.kind, r.spec.task, ctx).value, r).value).error)
             && |o.trace| == 1 && o.trace[0].RuntimeBuilt?
  {
    match GetExecutable(r.project, r.kind, r.spec.task, ctx)
    case Err(e) => Outcome(Err(e), r, [])
    case Ok(exe) =>
      match GetTask(r.project, r.kind, r.spec.task, ctx)
      case Err(e) => Outcome(Err(e), r, [])
      case Ok(task) =>
        match runtimeBuild(exe, task, r)
        case Err(e) => Outcome(Err(e), r, [RuntimeBuilt(exe, task, r)])
        case Ok(patch) =>
          match KwargsBeside(JObj(patch), "kind")
          case Err(e) => Outcome(Err(e), r, [RuntimeBuilt(exe, task, r)])
          case Ok(kwargs) =>
            match buildSpec(r.kind, kwargs)
            case Err(e) => Outcome(Err(e), r, [RuntimeBuilt(exe, task, r)])
            case Ok(spec) =>
              var built := SetState(r.(spec := spec), BUILT);
              Outcome(Ok(built), built, [RuntimeBuilt(exe, task, r), Saved(built)])
  }

  /** The status after a successful runtime call: the refreshed status with
      every key the runtime returned laid over it, except that a run executed
      remotely never takes its state from the runtime. */
  function MergeStatus(current: Dict, returned: Dict, local: bool): (merged: Dict)
    ensures merged.Keys == current.Keys + (if local then returned.Keys else returned.Keys - {"state"})
    ensures forall k :: k in returned && (local || k != "state") ==> merged[k] == returned[k]
    ensures forall k :: k in current && (k !in returned || (!local && k == "state")) ==> merged[k] == current[k]
    ensures !local ==> Get(merged, "state") == Get(current, "state")
  {
    var engine := if local then returned else returned - {"state"};
    current + engine
  }

  /** `run`.  `first` is what the opening refresh reads and `second` what the
      refresh after the runtime call reads; `runtime` is the runtime's `run`.
      A local run must be ready, is marked RUNNING and saved before the
      runtime starts; a remote run skips both.  A runtime failure records the
      message (and, for a local run, the ERROR state) and re-raises it; a
      success merges the returned status. */
  function ExecuteRun(r: Run, first: Snapshot, second: Snapshot, runtime: Run -> RuntimeOutcome): (o: Outcome)
    ensures |o.trace| >= 1 && o.trace[0] == Refreshed(first)
    ensures o.result == Err(EntityError(NotReadyMessage)) <==>
            first.spec.localExecution && !IsReadyToRun(Refresh(r, first))
    ensures o.result == Err(EntityError(NotReadyMessage)) ==>
            o.trace == [Refreshed(first)] && o.final == Refresh(r, first)
    ensures first.spec.localExecution && IsReadyToRun(Refresh(r, first)) ==>
      && |o.trace| == 5
      && o.trace[1] == Saved(SetState(Refresh(r, first), RUNNING))
      && o.trace[2] == RuntimeRan(SetState(Refresh(r, first), RUNNING))
    ensures !first.spec.localExecution ==>
      |o.trace| == 4 && o.trace[1] == RuntimeRan(Refresh(r, first))
    ensures o.result != Err(EntityError(NotReadyMessage)) ==>
      var n := |o.trace|;
      var input := o.trace[n - 3].input;
      && n >= 4
      && o.trace[n - 3].RuntimeRan?
      && o.trace[n - 2] == Refreshed(second)
      && o.trace[n - 1] == Saved(o.final)
      && o.final.(spec := r.spec, status := r.status) == r
      && o.final.spec == second.spec
      && (runtime(input).Failed? ==>
            && o.result == Err(Raised(runtime(input).text))
            && Get(o.final.status, "message") == JStr(runtime(input).text)
            && (second.spec.localExecution ==> InState(o.final, ERROR))
            && (!second.spec.localExecution ==> Get(o.final.status, "state") == Get(second.status, "state"))
            && (forall k :: k != "state" && k != "message" ==> (k in o.final.status <==> k in second.status))
            && (forall k :: k in second.status && k != "state" && k != "message" ==>
                  o.final.status[k] == second.status[k]))
      && (runtime(input).Returned? ==>
            && o.result == Ok(o.final)
            && o.final.status == MergeStatus(second.status, runtime(input).status, second.spec.localExecution))
  {
    var current := Refresh(r, first);
    if current.spec.localExecution && !IsReadyToRun(current) then
      Outcome(Err(EntityError(NotReadyMessage)), current, [Refreshed(first)])
    else
      var input := if current.spec.localExecution then SetState(current, RUNNING) else current;
      var prefix := if current.spec.localExecution then [Refreshed(first), Saved(input)] else [Refreshed(first)];
      var after := Refresh(input, second);
      match runtime(input)
      case Failed(text) =>
        var marked := if after.spec.localExecution then SetState(after, ERROR) else after;
        var failed := SetMessage(marked, text);
        Outcome(Err(Raised(text)), failed, prefix + [RuntimeRan(input), Refreshed(second), Saved(failed)])
      case Returned(patch) =>
        var done := after.(status := MergeStatus(after.status, patch, after.spec.localExecution));
        Outcome(Ok(done), done, prefix + [RuntimeRan(input), Refreshed(second), Saved(done)])
  }

  /** A build whose saved record is still what the backend holds when `run`
      refreshes leaves a local run ready: `run` does not refuse it. */
  lemma BuildThenRunIsReady(r: Run, ctx: Context, runtimeBuild: (Json, Json, Run) -> Result<Dict>,
                            buildSpec: (string, Dict) -> Result<RunSpec>, second: Snapshot, runtime: Run -> RuntimeOutcome)
    requires BuildRun(r, ctx, runtimeBuild, buildSpec).result.Ok?
    ensures var b := BuildRun(r, ctx, runtimeBuild, buildSpec).final;
            ExecuteRun(b, Snapshot(b.spec, b.status), second, runtime).result != Err(EntityError(NotReadyMessage))
  {
  }

  /** The index of the first snapshot whose state is finished, if any. */
  function FirstFinished(polls: seq<Snapshot>): (k: Option<nat>)
    ensures k.Some? ==> k.value < |polls| && IsFinished(polls[k.value].status)
    ensures k.Some? ==> forall j :: 0 <= j < k.value ==> !IsFinished(polls[j].status)
    ensures k.None? <==> forall j :: 0 <= j < |polls| ==> !IsFinished(polls[j].status)
  {
    if |polls| == 0 then None
    else if IsFinished(polls[0].status) then Some(0)
    else
      match FirstFinished(polls[1..])
      case None => None
      case Some(i) => Some(i + 1)
  }

  /** `wait`: refresh until the state is STOPPED, ERROR or COMPLETED, with no
      timeout.  `polls` is the stream of copies successive refreshes read;
      `count` is the number of refreshes made, and `None` means the stream ran
      out before a finished state (the source would keep polling). */
  method WaitRun(r: Run, polls: seq<Snapshot>) returns (finished: Option<Run>, count: nat)
    ensures count <= |polls|
    ensures finished.Some? ==>
      && count >= 1
      && finished.value == Refresh(r, polls[count - 1])
      && IsFinished(finished.value.status)
      && forall j :: 0 <= j < count - 1 ==> !IsFinished(polls[j].status)
    ensures finished.None? ==> count == |polls| && forall j :: 0 <= j < |polls| ==> !IsFinished(polls[j].status)
    ensures finished.Some? <==> FirstFinished(polls).Some?
  {
    var current := r;
    count := 0;
    while count < |polls|
      invariant count <= |polls|
      invariant forall j :: 0 <= j < count ==> !IsFinished(polls[j].status)
      invariant current.(spec := r.spec, status := r.status) == r
    {
      current := Refresh(current, polls[count]);
      count := count + 1;
      if IsFinished(current.status) {
        finished := Some(current);
        return;
      }
    }
    finished := None;
  }

  /** A backend reporting RUNNING and then COMPLETED ends the wait at the
      second refresh. */
  lemma WaitRunningThenCompleted(running: RunSpec, s1: Dict, s2: Dict)
    requires Get(s1, "state") == JStr(StateName(RUNNING))
    requires Get(s2, "state") == JStr(StateName(COMPLETED))
    ensures FirstFinished([Snapshot(running, s1), Snapshot(running, s2)]) == Some(1)
  {
  }

  /** A request sent to the processor that talks to the remote engine. */
  datatype ProcessorCall =
    | ReadRunLogs(project: string, id: string)
    | StopRemoteRun(project: string, id: string)
    | ResumeRemoteRun(project: string, id: string)

  /** `logs` always asks the processor. */
  function Logs(r: Run): (c: ProcessorCall)
    ensures c.ReadRunLogs? && c.project == r.project && c.id == r.id
  {
    ReadRunLogs(r.project, r.id)
  }

  /** `stop` signals the remote engine, and does nothing for a local run. */
  function Stop(r: Run): (c: Option<ProcessorCall>)
    ensures c.None? <==> r.spec.localExecution
    ensures c.Some? ==> c.value == StopRemoteRun(r.project, r.id)
  {
    if r.spec.localExecution then None else Some(StopRemoteRun(r.project, r.id))
  }

  /** `resume` signals the remote engine, and does nothing for a local run. */
  function Resume(r: Run): (c: Option<ProcessorCall>)
    ensures c.None? <==> r.spec.localExecution
    ensures c.Some? ==> c.value == ResumeRemoteRun(r.project, r.id)
  {
    if r.spec.localExecution then None else Some(ResumeRemoteRun(r.project, r.id))
  }
}

=== FILE: run_references.dfy ===
/** How a Run finds what it was scheduled against: the executable (function
    or workflow) and the task named by its `spec.task` reference string
    (`_get_executable` and `_get_task` of the Run entity). */
module RunReferences {
  import opened Outcomes
  import opened Json
  import opened Strings

  /** The task reference format: `{task-kind}://{path}/{name}:{id}`, for
      example `job://proj/job/myfunc:abc123`. */
  function TaskString(taskKind: string, path: string, name: string, id: string): string {
    taskKind + "://" + path + "/" + name + ":" + id
  }

  /** `_get_executable`'s parse of `spec.task`: take the last `/`-segment and
      split it at `:`; the name is the first piece and the id the second one.
      A last segment without `:` makes the `[1]` index fail. */
  function ExecutableRef(task: string): (r: Result<(string, string)>)
    ensures r.Ok? ==> ':' !in r.value.0 && ':' !in r.value.1
    ensures r.Ok? <==> Contains(Split(task, "/")[|Split(task, "/")| - 1], ":")
    ensures r.Err? ==> r.error == IndexError
  {
    var segments := Split(task, "/");
    var nameId := Split(segments[|segments| - 1], ":");
    if |nameId| < 2 then
      FindNone(segments[|segments| - 1], ":");
      Err(IndexError)
    else
      FindNone(segments[|segments| - 1], ":");
      SplitPiecesFree(segments[|segments| - 1], ":");
      NoCharPiece(nameId[0], ':');
      NoCharPiece(nameId[1], ':');
      Ok((nameId[0], nameId[1]))
  }

  /** `ExecutableRef` recovers name and id from any reference whose name and
      id are free of `/` and `:`, whatever precedes the last `/`. */
  lemma {:induction false} ExecutableRefRecovers(prefix: string, name: string, id: string)
    requires '/' !in name && ':' !in name
    requires '/' !in id && ':' !in id
    ensures ExecutableRef(prefix + "/" + name + ":" + id) == Ok((name, id))
  {
    var last := name + ":" + id;
    assert '/' !in last;
    assert prefix + "/" + name + ":" + id == prefix + ['/'] + last;
    SplitLast(prefix, '/', last);
    assert last == name + [':'] + id;
    SplitPair(name, ':', id);
  }

  /** `_get_task`'s executable string: the executable kind, `://`, then the
      second `://`-piece of `spec.task` (which fails with an index error when
      the reference has no `://`). */
  function TaskKey(execKind: string, task: string): (r: Result<string>)
    ensures r.Err? <==> !Contains(task, "://")
    ensures r.Ok? ==> |r.value| >= |execKind| + 3 && r.value[..|execKind| + 3] == execKind + "://"
    ensures r.Ok? ==> |r.value| >= |execKind| + 3 && !Contains(r.value[|execKind| + 3..], "://")
  {
    var pieces := Split(task, "://");
    if |pieces| < 2 then
      FindNone(task, "://");
      Err(IndexError)
    else
      FindNone(task, "://");
      SplitPiecesFree(task, "://");
      var key := execKind + "://" + pieces[1];
      assert key[|execKind| + 3..] == pieces[1];
      Ok(key)
  }

  /** The task kind used to filter a remote task listing: the text before the
      first `://`. */
  function TaskKind(task: string): (k: string)
    ensures !Contains(k, "://")
    ensures Contains(task, "://") ==> |task| >= |k| + 3 && task[..|k| + 3] == k + "://"
  {
    var pieces := Split(task, "://");
    SplitPiecesFree(task, "://");
    FirstPieceIsPrefix(task, "://");
    pieces[0]
  }

  lemma FirstPieceIsPrefix(s: string, sep: string)
    requires |sep| > 0
    ensures Contains(s, sep) ==>
      |s| >= |Split(s, sep)[0]| + |sep| && s[..|Split(s, sep)[0]| + |sep|] == Split(s, sep)[0] + sep
  {
    match Find(s, sep)
    case None =>
      FindNone(s, sep);
    case Some(i) =>
      assert Split(s, sep)[0] == s[..i];
      assert s[..i + |sep|] == s[..i] + s[i..i + |sep|];
  }

  lemma NoSeparatorWithoutColonSlash(s: string)
    requires forall j :: 0 <= j < |s| - 1 && s[j] == ':' ==> s[j + 1] != '/'
    ensures !Contains(s, "://")
  {
    forall i: nat ensures !OccursAt(s, "://", i) {
      if i + 3 <= |s| {
        assert s[i..i + 3][0] == s[i] && s[i..i + 3][1] == s[i + 1];
      }
    }
  }

  lemma {:induction false} TaskStringPieces(taskKind: string, path: string, name: string, id: string)
    requires ':' !in taskKind && ':' !in path && ':' !in name && ':' !in id && '/' !in id
    ensures Split(TaskString(taskKind, path, name, id), "://") == [taskKind, path + "/" + name + ":" + id]
  {
    var rest := path + "/" + name + ":" + id;
    var s := TaskString(taskKind, path, name, id);
    assert s == taskKind + "://" + rest;
    forall j | 0 <= j < |rest| - 1 && rest[j] == ':' ensures rest[j + 1] != '/' {
      var p := |path| + 1 + |name|;
      if j == p {
        assert rest[j + 1] == id[0];
      }
    }
    NoSeparatorWithoutColonSlash(rest);
    forall j: nat | j < |taskKind| ensures !OccursAt(s, "://", j) {
      assert s[j] == taskKind[j];
    }
    assert s[|taskKind|..|taskKind| + 3] == "://";
    FindLeftmost(s, "://", |taskKind|);
    assert s[..|taskKind|] == taskKind;
    assert s[|taskKind| + 3..] == rest;
    SplitWithout(rest, "://");
  }

  /** On a well-formed reference the task key swaps the task kind for the
      executable kind and keeps the rest, and the task kind is the prefix. */
  lemma TaskKeyRecovers(execKind: string, taskKind: string, path: string, name: string, id: string)
    requires ':' !in taskKind && ':' !in path && ':' !in name && ':' !in id && '/' !in id
    ensures TaskKey(execKind, TaskString(taskKind, path, name, id))
            == Ok(execKind + "://" + path + "/" + name + ":" + id)
    ensures TaskKind(TaskString(taskKind, path, name, id)) == taskKind
  {
    var s := TaskString(taskKind, path, name, id);
    var rest := path + "/" + name + ":" + id;
    TaskStringPieces(taskKind, path, name, id);
    assert Split(s, "://")[1] == rest;
    assert execKind + "://" + rest == execKind + "://" + path + "/" + name + ":" + id;
  }

  /** What the Run learns from its surroundings; every field stands for a
      collaborator whose body is not part of this model. */
  datatype Context = Context(
    local: bool,                          // the context works without a backend
    executableKind: string -> string,     // the executable kind of a run kind
    entityTypeOf: string -> string,       // the entity type of an executable kind
    readEntity: (string, string, string, string) -> Result<Json>,
                                          // read one entity by (name, entity type, project, id), as a dict
    localTasks: seq<Json>,                // every task dict held by a local context, in listing order
    listTasks: (string, Dict) -> seq<Json>  // a filtered remote task listing for (project, params), as dicts
  )

  /** `_get_executable`: read the executable the task reference names, in the
      run's project, with the entity type of the run kind's executable kind. */
  function GetExecutable(project: string, kind: string, task: string, ctx: Context): (r: Result<Json>)
    ensures ExecutableRef(task).Err? ==> r == Err(IndexError)
    ensures ExecutableRef(task).Ok? ==>
      r == ctx.readEntity(ExecutableRef(task).value.0, ctx.entityTypeOf(ctx.executableKind(kind)),
                          project, ExecutableRef(task).value.1)
  {
    var entityType := ctx.entityTypeOf(ctx.executableKind(kind));
    var nameId :- ExecutableRef(task);
    ctx.readEntity(nameId.0, entityType, project, nameId.1)
  }

  /** Does a local task dict belong to the executable string?  `i.get("spec")`
      must be a dict for the `.get("function")` that follows. */
  function TaskFunctionIs(t: Json, execString: string): (r: Result<bool>)
    ensures r.Err? <==> !(t.JObj? && Get(t.fields, "spec").JObj?)
    ensures r.Err? ==> r.error == AttributeError
    ensures r.Ok? ==> (r.value <==> Get(Get(t.fields, "spec").fields, "function") == JStr(execString))
  {
    match t
    case JObj(fields) =>
      (match Get(fields, "spec")
       case JObj(spec) => Ok(Get(spec, "function") == JStr(execString))
       case _ => Err(AttributeError))
    case _ => Err(AttributeError)
  }

  /** The query parameters of the remote task listing. */
  function TaskFilter(execString: string, taskKind: string): (params: Dict)
    ensures params.Keys == {"function", "kind"}
    ensures params["function"] == JStr(execString) && params["kind"] == JStr(taskKind)
  {
    map["function" := JStr(execString), "kind" := JStr(taskKind)]
  }

  /** `_get_task`: a local context scans every task for the first whose
      `spec.function` is the executable string and fails with "Task not found."
      when none is; a remote context asks for the tasks with that function and
      the reference's task kind and takes the first, failing with an index
      error on an empty listing. */
  function GetTask(project: string, kind: string, task: string, ctx: Context): (r: Result<Json>)
    ensures TaskKey(ctx.executableKind(kind), task).Err? ==> r == Err(IndexError)
    ensures ctx.local && TaskKey(ctx.executableKind(kind), task).Ok? ==>
      var key := TaskKey(ctx.executableKind(kind), task).value;
      && (r.Ok? ==> exists i :: 0 <= i < |ctx.localTasks| && r.value == ctx.localTasks[i]
                               && TaskFunctionIs(ctx.localTasks[i], key) == Ok(true)
                               && forall j :: 0 <= j < i ==> TaskFunctionIs(ctx.localTasks[j], key) == Ok(false))
      && (r == Err(EntityError("Task not found.")) <==>
            forall j :: 0 <= j < |ctx.localTasks| ==> TaskFunctionIs(ctx.localTasks[j], key) == Ok(false))
      && (forall i :: 0 <= i < |ctx.localTasks| && TaskFunctionIs(ctx.localTasks[i], key) == Ok(true)
                      && (forall j :: 0 <= j < i ==> TaskFunctionIs(ctx.localTasks[j], key) == Ok(false)) ==>
            r == Ok(ctx.localTasks[i]))
      && (forall k :: 0 <= k < |ctx.localTasks| && TaskFunctionIs(ctx.localTasks[k], key).Err?
                      && (forall j :: 0 <= j < k ==> TaskFunctionIs(ctx.localTasks[j], key) == Ok(false)) ==>
            r == Err(AttributeError))
    ensures !ctx.local && TaskKey(ctx.executableKind(kind), task).Ok? ==>
      var listed := ctx.listTasks(project, TaskFilter(TaskKey(ctx.executableKind(kind), task).value, TaskKind(task)));
      && (r.Ok? <==> |listed| > 0)
      && (r.Ok? ==> r.value == listed[0])
      && (r.Err? ==> r.error == IndexError)
  {
    var execString :- TaskKey(ctx.executableKind(kind), task);
    if ctx.local then
      FirstMatchDetermined(ctx.localTasks, t => TaskFunctionIs(t, execString));
      var found :- FirstMatch(ctx.localTasks, t => TaskFunctionIs(t, execString));
      match found
      case None => Err(EntityError("Task not found."))
      case Some(i) => Ok(ctx.localTasks[i])
    else
      var listed := ctx.listTasks(project, TaskFilter(execString, TaskKind(task)));
      if |listed| == 0 then Err(IndexError) else Ok(listed[0])
  }
}

/** The worked example `job://proj/job/myfunc:abc123` of the reference format. */
module RunReferenceExamples {
  import opened Outcomes
  import opened RunReferences

  /** The worked example of the reference format. */
  lemma ExampleExecutableRef()
    ensures ExecutableRef("job://proj/job/myfunc:abc123") == Ok(("myfunc", "abc123"))
  {
    assert "job://proj/job/myfunc:abc123" == "job://proj/job" + "/" + "myfunc" + ":" + "abc123";
    ExecutableRefRecovers("job://proj/job", "myfunc", "abc123");
  }

  /** The example is an instance of the reference format, so the task
      parsers read it as the format promises: the key swaps `job` for the
      executable kind, and the task kind is `job`. */
  lemma ExampleIsTaskString()
    ensures "job://proj/job/myfunc:abc123" == TaskString("job", "proj/job", "myfunc", "abc123")
    ensures TaskKey("python", "job://proj/job/myfunc:abc123")
            == Ok("python" + "://" + "proj/job" + "/" + "myfunc" + ":" + "abc123")
    ensures TaskKind("job://proj/job/myfunc:abc123") == "job"
  {
    assert "job://proj/job/myfunc:abc123" == TaskString("job", "proj/job", "myfunc", "abc123");
    TaskKeyRecovers("python", "job", "proj/job", "myfunc", "abc123");
  }

  /** Its task key keeps `proj/job/myfunc:abc123` behind the executable kind. */
  lemma ExampleTaskKey()
    ensures TaskKey("python", TaskString("job", "proj/job", "myfunc", "abc123"))
            == Ok("python" + "://" + "proj/job" + "/" + "myfunc" + ":" + "abc123")
  {
    TaskKeyRecovers("python", "job", "proj/job", "myfunc", "abc123");
  }

  /** Its task kind is `job`. */
  lemma ExampleTaskKind()
    ensures TaskKind(TaskString("job", "proj/job", "myfunc", "abc123")) == "job"
  {
    TaskKeyRecovers("python", "job", "proj/job", "myfunc", "abc123");
  }
}

=== FILE: sdk_dataitem.dfy ===
/** The Dataitem entity of the older SDK: its `store://` key, saving (create
    or update, refused in local mode), the checks `as_df` makes before
    reading, and the parsing of a dataitem mapping. */
module SdkDataitem {
  import opened Outcomes
  import opened Json
  import opened Strings
  import opened RunReferences

  /** The part of a dataitem spec the entity touches; `rest` is the others. */
  datatype DataitemSpec = DataitemSpec(key: string, path: Option<string>, rest: Dict)

  datatype Dataitem = Dataitem(
    project: string,
    name: string,
    id: string,
    kind: string,
    metadata: Json,
    spec: DataitemSpec,
    embedded: bool,
    local: bool)

  const LocalSaveMessage: string := "Use .export() for local execution."
  const NoPathMessage: string := "Path is not specified."
  const UnknownFormatMessage: string := "Unknown file format. Only csv and parquet are supported."
  const MissingFieldsMessage: string := "Project or name are not specified."

  /** The key the constructor writes into the spec:
      `store://{project}/dataitems/{kind}/{name}:{id}`. */
  function StoreKey(project: string, kind: string, name: string, id: string): string {
    "store://" + project + "/" + Collection + "/" + kind + "/" + name + ":" + id
  }

  const StoreScheme: string := "store:"
  const Collection: string := "dataitems"

  /** The constructor.  `uiid` generates the id from the caller's `uuid`;
      `buildMetadata` and `buildSpec` are the builders applied to the name
      and to the kind when no metadata or spec is given.  The spec's key is
      always overwritten with the store key. */
  function NewDataitem(project: string, name: string, kind: Option<string>, metadata: Option<Json>,
                       spec: Option<DataitemSpec>, local: bool, embedded: bool, uuid: Option<string>,
                       uiid: Option<string> -> string, buildMetadata: string -> Json,
                       buildSpec: string -> DataitemSpec): (d: Dataitem)
    ensures d.project == project && d.name == name && d.id == uiid(uuid)
    ensures d.kind == (if kind.Some? then kind.value else "table")
    ensures d.metadata == (if metadata.Some? then metadata.value else buildMetadata(name))
    ensures d.spec.key == StoreKey(project, d.kind, name, d.id)
    ensures var given := if spec.Some? then spec.value else buildSpec(d.kind);
      d.spec.path == given.path && d.spec.rest == given.rest
    ensures d.embedded == embedded && d.local == local
  {
    var id := uiid(uuid);
    var k := kind.GetOr("table");
    var s := spec.GetOr(buildSpec(k));
    Dataitem(project, name, id, k, metadata.GetOr(buildMetadata(name)),
             s.(key := StoreKey(project, k, name, id)), embedded, local)
  }

  /** The store key is its six `/`-segments joined: the scheme, the empty
      authority, the project, the collection, the kind and `name:id`. */
  lemma StoreKeyIsJoin(project: string, kind: string, name: string, id: string)
    ensures StoreKey(project, kind, name, id)
            == Join([StoreScheme, "", project, Collection, kind, name + ":" + id], "/")
  {
    var last := name + ":" + id;
    var p5 := [last];
    var p4 := [kind] + p5;
    var p3 := [Collection] + p4;
    var p2 := [project] + p3;
    var p1 := [""] + p2;
    var p0 := [StoreScheme] + p1;
    JoinCons(kind, p5, "/");
    var j4 := kind + "/" + last;
    JoinCons(Collection, p4, "/");
    var j3 := Collection + "/" + j4;
    JoinCons(project, p3, "/");
    var j2 := project + "/" + j3;
    JoinCons("", p2, "/");
    JoinCons(StoreScheme, p1, "/");
    // reassociate the left-nested key one segment at a time
    var k2 := "store://" + project + "/";
    var k4 := k2 + Collection + "/";
    var k6 := k4 + kind + "/";
    Assoc(k6, name + ":", id);
    Assoc(k6, name, ":");
    Assoc(k4, kind + "/", last);
    Assoc(k4, kind, "/");
    Assoc(k2, Collection + "/", j4);
    Assoc(k2, Collection, "/");
    Assoc("store://", project + "/", j3);
    Assoc("store://", project, "/");
    Assoc(StoreScheme + "/", "" + "/", j2);
    assert (StoreScheme + "/") + ("" + "/") == "store://";
    assert p0 == [StoreScheme, "", project, Collection, kind, last];
  }

  /** The store key splits at `/` into its six segments, and its last
      segment gives back the name and the id, whenever those parts are free
      of `/` and the name and id of `:`. */
  lemma StoreKeySegments(project: string, kind: string, name: string, id: string)
    requires '/' !in project && '/' !in kind
    requires '/' !in name && ':' !in name && '/' !in id && ':' !in id
    ensures Split(StoreKey(project, kind, name, id), "/")
            == [StoreScheme, "", project, Collection, kind, name + ":" + id]
    ensures ExecutableRef(StoreKey(project, kind, name, id)) == Ok((name, id))
  {
    var parts := [StoreScheme, "", project, Collection, kind, name + ":" + id];
    StoreKeyIsJoin(project, kind, name, id);
    assert forall k :: 0 <= k < |parts| ==> '/' !in parts[k];
    SplitJoinChar(parts, '/');
    var prefix := "store://" + project + "/" + Collection + "/" + kind;
    assert StoreKey(project, kind, name, id) == prefix + "/" + name + ":" + id;
    ExecutableRefRecovers(prefix, name, id);
  }

  /** The request `save` issues: a create of the serialised item, or an
      update of the item stored under `name` and `uuid`. */
  datatype SaveCall = Create(sent: Dataitem) | Update(sent: Dataitem, name: string, uuid: string)

  datatype Saved = Saved(call: SaveCall, item: Dataitem)

  /** `save`: refused for a local dataitem; without a uuid it creates, with
      one it adopts the uuid as its id and updates.  The item is serialised
      before the id changes, so the update carries the previous id. */
  function Save(d: Dataitem, uuid: Option<string>): (o: Result<Saved>)
    ensures o.Err? <==> d.local
    ensures o.Err? ==> o.error == EntityError(LocalSaveMessage)
    ensures o.Ok? && uuid.None? ==> o.value.call == Create(d) && o.value.item == d
    ensures o.Ok? && uuid.Some? ==>
      && o.value.call == Update(d, d.name, uuid.value)
      && o.value.item.id == uuid.value && o.value.item.(id := d.id) == d
  {
    if d.local then Err(EntityError(LocalSaveMessage))
    else
      match uuid
      case None => Ok(Saved(Create(d), d))
      case Some(u) => Ok(Saved(Update(d, d.name, u), d.(id := u)))
  }

  /** The file `export` writes to by default: `dataitem_{project}_{name}.yaml`. */
  function ExportFilename(d: Dataitem, filename: Option<string>): (f: string)
    ensures filename.Some? ==> f == filename.value
    ensures filename.None? ==>
      && |f| >= 15
      && f[..9] == "dataitem_" && f[|f| - 5..] == ".yaml"
      && f[9..|f| - 5] == d.project + "_" + d.name
  {
    if filename.Some? then filename.value else "dataitem_" + d.project + "_" + d.name + ".yaml"
  }

  /** `_check_local`: the path is local iff its scheme maps to "local";
      `schemeOf` is the scheme mapping. */
  function CheckLocal(path: string, schemeOf: string -> string): (b: bool)
    ensures b <==> schemeOf(path) == "local"
  {
    schemeOf(path) == "local"
  }

  /** `_get_extension`: an explicit format wins; a `sql` scheme reads as
      parquet; otherwise the path's own extension (`extOf`), which must
      exist. */
  function GetExtension(path: string, fileFormat: Option<string>,
                        schemeOf: string -> string, extOf: string -> Option<string>): (r: Result<string>)
    ensures fileFormat.Some? ==> r == Ok(fileFormat.value)
    ensures fileFormat.None? && schemeOf(path) == "sql" ==> r == Ok("parquet")
    ensures fileFormat.None? && schemeOf(path) != "sql" ==>
      r == (if extOf(path).Some? then Ok(extOf(path).value) else Err(EntityError(UnknownFormatMessage)))
    ensures r.Err? ==> r.error == EntityError(UnknownFormatMessage)
  {
    if fileFormat.Some? then Ok(fileFormat.value)
    else if schemeOf(path) == "sql" then Ok("parquet")
    else
      match extOf(path)
      case None => Err(EntityError(UnknownFormatMessage))
      case Some(ext) => Ok(ext)
  }

  /** How `as_df` reads: the format handed to the store, and whether the
      file is downloaded to a temporary folder (and cleaned up) first. */
  datatype ReadPlan = ReadPlan(path: string, extension: string, download: bool)

  /** The decisions `as_df` takes before the store reads the dataframe. */
  function AsDfPlan(d: Dataitem, fileFormat: Option<string>,
                    schemeOf: string -> string, extOf: string -> Option<string>): (r: Result<ReadPlan>)
    ensures d.spec.path.None? ==> r == Err(EntityError(NoPathMessage))
    ensures d.spec.path.Some? ==>
      match GetExtension(d.spec.path.value, fileFormat, schemeOf, extOf)
      case Err(e) => r == Err(e)
      case Ok(ext) =>
        r == Ok(ReadPlan(d.spec.path.value, ext, !CheckLocal(d.spec.path.value, schemeOf)))
    ensures r.Ok? ==> (r.value.download <==> schemeOf(r.value.path) != "local")
  {
    match d.spec.path
    case None => Err(EntityError(NoPathMessage))
    case Some(path) =>
      var ext :- GetExtension(path, fileFormat, schemeOf, extOf);
      Ok(ReadPlan(path, ext, !CheckLocal(path, schemeOf)))
  }

  /** `_parse_dict`: project and name are mandatory; the id, the kind
      (default "dataitem") and the embedded flag are optional; a missing or
      null spec is an empty one, while only an ABSENT metadata defaults to
      `{"name": name}`.  `buildSpec` and `buildMetadata` are the builders
      (which may raise).  The spec is unpacked beside `kind=`, so a spec that
      is not a mapping or holds `kind` raises TypeError, and so does a
      metadata value that is not a mapping. */
  function ParseDataitemDict(obj: Dict, buildSpec: (Json, Dict) -> Result<Json>,
                             buildMetadata: Dict -> Result<Json>): (r: Result<Dict>)
    ensures Get(obj, "project") == JNull || Get(obj, "name") == JNull ==>
      r == Err(EntityError(MissingFieldsMessage))
    // the spec cannot be unpacked beside `kind=`
    ensures Get(obj, "project") != JNull && Get(obj, "name") != JNull
            && Get(obj, "spec") != JNull && !(Get(obj, "spec").JObj? && "kind" !in Get(obj, "spec").fields) ==>
      r == Err(TypeError)
    // the spec is built before the metadata is looked at
    ensures Get(obj, "project") != JNull && Get(obj, "name") != JNull
            && (Get(obj, "spec") == JNull || (Get(obj, "spec").JObj? && "kind" !in Get(obj, "spec").fields))
            && buildSpec(ParsedKind(obj), SpecKwargs(obj)).Err? ==>
      r == Err(buildSpec(ParsedKind(obj), SpecKwargs(obj)).error)
    // a stored metadata that is not a mapping (`None` included) cannot be unpacked
    ensures Get(obj, "project") != JNull && Get(obj, "name") != JNull
            && (Get(obj, "spec") == JNull || (Get(obj, "spec").JObj? && "kind" !in Get(obj, "spec").fields))
            && buildSpec(ParsedKind(obj), SpecKwargs(obj)).Ok?
            && "metadata" in obj && !obj["metadata"].JObj? ==>
      r == Err(TypeError)
    // an error of the metadata builder passes through
    ensures Get(obj, "project") != JNull && Get(obj, "name") != JNull
            && (Get(obj, "spec") == JNull || (Get(obj, "spec").JObj? && "kind" !in Get(obj, "spec").fields))
            && buildSpec(ParsedKind(obj), SpecKwargs(obj)).Ok?
            && ("metadata" in obj ==> obj["metadata"].JObj?)
            && buildMetadata(MetadataKwargs(obj)).Err? ==>
      r == Err(buildMetadata(MetadataKwargs(obj)).error)
    // with the fields present, both unpackings possible and both builders succeeding, the parse succeeds
    ensures Get(obj, "project") != JNull && Get(obj, "name") != JNull
            && (Get(obj, "spec") == JNull || (Get(obj, "spec").JObj? && "kind" !in Get(obj, "spec").fields))
            && buildSpec(ParsedKind(obj), SpecKwargs(obj)).Ok?
            && ("metadata" in obj ==> obj["metadata"].JObj?)
            && buildMetadata(MetadataKwargs(obj)).Ok?
      ==> r.Ok?
    ensures r.Ok? ==>
      && Get(obj, "project") != JNull && Get(obj, "name") != JNull
      && r.value.Keys == {"project", "name", "kind", "uuid", "metadata", "spec", "embedded"}
      && r.value["project"] == obj["project"] && r.value["name"] == obj["name"]
      // the kind is "dataitem" only when the mapping has none
      && r.value["kind"] == ParsedKind(obj)
      && r.value["uuid"] == Get(obj, "id") && r.value["embedded"] == Get(obj, "embedded")
      // a null spec acts as an empty one
      && (Get(obj, "spec") == JNull || (Get(obj, "spec").JObj? && "kind" !in Get(obj, "spec").fields))
      && Ok(r.value["spec"]) == buildSpec(r.value["kind"], SpecKwargs(obj))
      // the metadata default applies only when the key is absent
      && ("metadata" in obj ==> obj["metadata"].JObj?)
      && Ok(r.value["metadata"]) == buildMetadata(MetadataKwargs(obj))
  {
    var project := Get(obj, "project");
    var name := Get(obj, "name");
    if project == JNull || name == JNull then Err(EntityError(MissingFieldsMessage))
    else
      var uuid := Get(obj, "id");
      var kind := GetOr(obj, "kind", JStr("dataitem"));
      var embedded := Get(obj, "embedded");
      var spec := Get(obj, "spec");
      var spec := if spec != JNull then spec else JObj(map[]);
      var kwargs :- KwargsBeside(spec, "kind");
      var builtSpec :- buildSpec(kind, kwargs);
      var metadata := GetOr(obj, "metadata", JObj(map["name" := name]));
      if !metadata.JObj? then Err(TypeError)
      else
        var builtMetadata :- buildMetadata(metadata.fields);
        Ok(map["project" := project, "name" := name, "kind" := kind, "uuid" := uuid,
               "metadata" := builtMetadata, "spec" := builtSpec, "embedded" := embedded])
  }

  /** The kind `_parse_dict` passes on: the stored one, "dataitem" when absent. */
  function ParsedKind(obj: Dict): Json {
    if "kind" in obj then obj["kind"] else JStr("dataitem")
  }

  /** The spec's keyword arguments: the stored mapping, none for a null or
      missing spec. */
  function SpecKwargs(obj: Dict): Dict {
    if Get(obj, "spec").JObj? then Get(obj, "spec").fields else map[]
  }

  /** The metadata's keyword arguments: the stored mapping, or `name` alone
      when no metadata is stored. */
  function MetadataKwargs(obj: Dict): Dict {
    if "metadata" !in obj then map["name" := Get(obj, "name")]
    else if obj["metadata"].JObj? then obj["metadata"].fields
    else map[]
  }

  /** The mapping a spec serialises to: its key and path beside the rest. */
  function SpecToDict(s: DataitemSpec): Dict {
    s.rest["key" := JStr(s.key)]["path" := if s.path.Some? then JStr(s.path.value) else JNull]
  }

  /** The mapping `to_dict` gives: one key per public attribute. */
  function ToDict(d: Dataitem): Dict {
    map["project" := JStr(d.project), "name" := JStr(d.name), "id" := JStr(d.id),
        "kind" := JStr(d.kind), "metadata" := d.metadata, "spec" := JObj(SpecToDict(d.spec)),
        "embedded" := JBool(d.embedded)]
  }

  /** Parsing what a dataitem serialises to gives back its identity, kind,
      id and embedded flag, with the spec and metadata rebuilt from their
      serialisations.  A spec holding `kind` of its own, or a metadata that
      is not a mapping, raises TypeError; builder errors pass through. */
  lemma ParseOfToDict(d: Dataitem, buildSpec: (Json, Dict) -> Result<Json>,
                      buildMetadata: Dict -> Result<Json>)
    ensures "kind" in d.spec.rest ==> ParseDataitemDict(ToDict(d), buildSpec, buildMetadata) == Err(TypeError)
    ensures "kind" !in d.spec.rest && buildSpec(JStr(d.kind), SpecToDict(d.spec)).Err? ==>
      ParseDataitemDict(ToDict(d), buildSpec, buildMetadata) == Err(buildSpec(JStr(d.kind), SpecToDict(d.spec)).error)
    ensures "kind" !in d.spec.rest && buildSpec(JStr(d.kind), SpecToDict(d.spec)).Ok? && !d.metadata.JObj? ==>
      ParseDataitemDict(ToDict(d), buildSpec, buildMetadata) == Err(TypeError)
    ensures "kind" !in d.spec.rest && buildSpec(JStr(d.kind), SpecToDict(d.spec)).Ok? && d.metadata.JObj?
            && buildMetadata(d.metadata.fields).Ok? ==>
      var p := ParseDataitemDict(ToDict(d), buildSpec, buildMetadata);
      && p.Ok?
      && p.value["project"] == JStr(d.project) && p.value["name"] == JStr(d.name)
      && p.value["kind"] == JStr(d.kind) && p.value["uuid"] == JStr(d.id)
      && p.value["embedded"] == JBool(d.embedded)
      && p.value["spec"] == buildSpec(JStr(d.kind), SpecToDict(d.spec)).value
      && p.value["metadata"] == buildMetadata(d.metadata.fields).value
  {
    var obj := ToDict(d);
    assert "kind" in SpecToDict(d.spec) <==> "kind" in d.spec.rest;
    assert Get(obj, "spec") == JObj(SpecToDict(d.spec));
    assert SpecKwargs(obj) == SpecToDict(d.spec);
    assert ParsedKind(obj) == JStr(d.kind);
  }

  /** The two kind defaults differ: a dataitem constructed without a kind is
      a "table", one parsed from a mapping without a kind a "dataitem". */
  lemma KindDefaultsDiffer(obj: Dict, buildSpec: (Json, Dict) -> Result<Json>,
                           buildMetadata: Dict -> Result<Json>,
                           project: string, name: string, uiid: Option<string> -> string,
                           defaultMetadata: string -> Json, defaultSpec: string -> DataitemSpec)
    requires "kind" !in obj
    requires ParseDataitemDict(obj, buildSpec, buildMetadata).Ok?
    ensures ParseDataitemDict(obj, buildSpec, buildMetadata).value["kind"] == JStr("dataitem")
    ensures NewDataitem(project, name, None, None, None, false, false, None,
                        uiid, defaultMetadata, defaultSpec).kind == "table"
  {
  }

  /** A stored metadata of `None` is not replaced by the default: it is
      unpacked and raises. */
  lemma NullMetadataRaises(obj: Dict, buildSpec: (Json, Dict) -> Result<Json>,
                           buildMetadata: Dict -> Result<Json>)
    requires Get(obj, "project") != JNull && Get(obj, "name") != JNull
    requires Get(obj, "spec") == JNull && buildSpec(GetOr(obj, "kind", JStr("dataitem")), map[]).Ok?
    requires "metadata" in obj && obj["metadata"] == JNull
    ensures ParseDataitemDict(obj, buildSpec, buildMetadata) == Err(TypeError)
  {
  }
}

=== FILE: sdk_run.dfy ===
/** The Run entity of the older SDK: a record saved to, refreshed from and
    deleted on the backend (all refused in local mode), the lookup of the
    artifacts and dataitems it produced, and the parsing of a run mapping. */
module SdkRun {
  import opened Outcomes
  import opened Json

  /** A Run as the constructor leaves it; `local` is the private flag. */
  datatype Run = Run(
    project: string,
    kind: string,
    id: string,
    taskId: string,
    task: Option<string>,
    spec: Dict,
    status: Dict,
    local: bool)

  const LocalSaveMessage: string := "Use .export() for local execution."
  const LocalRefreshMessage: string := "Cannot refresh local run."
  const LocalDeleteMessage: string := "Cannot delete local run."
  const NoResultMessage: string := "Run has no result (maybe try when it finishes)."
  const StatusNotDictMessage: string := "Status must be a dictionary."
  const MissingFieldsMessage: string := "Project, task or task_id are not specified."

  /** The constructor.  `uiid` is the identifier generator (it receives the
      caller's `uuid`), `defaultSpec` the spec builder applied to the kind
      when no spec is given. */
  function NewRun(project: string, taskId: string, task: Option<string>, spec: Option<Dict>,
                  local: bool, uuid: Option<string>,
                  uiid: Option<string> -> string, defaultSpec: string -> Dict): (r: Run)
    ensures r.kind == "run" && r.status == map[]
    ensures r.project == project && r.taskId == taskId && r.task == task && r.local == local
    ensures r.id == uiid(uuid)
    ensures spec.Some? ==> r.spec == spec.value
    ensures spec.None? ==> r.spec == defaultSpec(r.kind)
  {
    Run(project, "run", uiid(uuid), taskId, task, spec.GetOr(defaultSpec("run")), map[], local)
  }

  /** The mapping `to_dict` gives: one key per public attribute. */
  function ToDict(r: Run): Dict {
    map["project" := JStr(r.project), "kind" := JStr(r.kind), "id" := JStr(r.id),
        "task_id" := JStr(r.taskId),
        "task" := (if r.task.Some? then JStr(r.task.value) else JNull),
        "spec" := JObj(r.spec), "status" := JObj(r.status)]
  }

  /** What `save` sends to the backend and the run it leaves. */
  datatype Saved = Saved(payload: Dict, run: Run)

  /** `save`: refused for a local run; otherwise sends the run without its
      status (the backend owns it) and adopts the id of the backend's reply
      when the reply carries one (`responseId`). */
  function Save(r: Run, responseId: Option<string>): (o: Result<Saved>)
    ensures o.Err? <==> r.local
    ensures o.Err? ==> o.error == EntityError(LocalSaveMessage)
    ensures o.Ok? ==>
      && "status" !in o.value.payload
      && o.value.payload.Keys == ToDict(r).Keys - {"status"}
      && forall k :: k in o.value.payload ==> o.value.payload[k] == ToDict(r)[k]
    ensures o.Ok? && responseId.Some? ==> o.value.run.id == responseId.value
    ensures o.Ok? && responseId.None? ==> o.value.run == r
    ensures o.Ok? ==> o.value.run.(id := r.id) == r
  {
    if r.local then Err(EntityError(LocalSaveMessage))
    else
      var obj := ToDict(r) - {"status"};
      Ok(Saved(obj, if responseId.Some? then r.(id := responseId.value) else r))
  }

  /** The file `export` writes to: the given name, or the default one built
      from the project, the task id and the run id. */
  function ExportFilename(r: Run, filename: Option<string>): (f: string)
    ensures filename.Some? ==> f == filename.value
    ensures filename.None? ==>
      && |f| >= 9
      && f[..4] == "run_" && f[|f| - 5..] == ".yaml"
      && f[4..|f| - 5] == r.project + "_" + r.taskId + "_" + r.id
  {
    if filename.Some? then filename.value
    else "run_" + r.project + "_" + r.taskId + "_" + r.id + ".yaml"
  }

  /** The backend request an operation issues. */
  datatype BackendCall = ReadRun(id: string) | DeleteRunCall(id: string) | ReadLogs(id: string)

  /** `refresh`: refused for a local run, otherwise a read of this run. */
  function Refresh(r: Run): (c: Result<BackendCall>)
    ensures c.Err? <==> r.local
    ensures c.Err? ==> c.error == EntityError(LocalRefreshMessage)
    ensures c.Ok? ==> c.value == ReadRun(r.id)
  {
    if r.local then Err(EntityError(LocalRefreshMessage)) else Ok(ReadRun(r.id))
  }

  /** `delete`: refused for a local run, otherwise a delete of this run. */
  function Delete(r: Run): (c: Result<BackendCall>)
    ensures c.Err? <==> r.local
    ensures c.Err? ==> c.error == EntityError(LocalDeleteMessage)
    ensures c.Ok? ==> c.value == DeleteRunCall(r.id)
  {
    if r.local then Err(EntityError(LocalDeleteMessage)) else Ok(DeleteRunCall(r.id))
  }

  /** `logs` reads the run's log resource; it has no local-mode guard. */
  function Logs(r: Run): (c: BackendCall)
    ensures c == ReadLogs(r.id)
  {
    ReadLogs(r.id)
  }

  /** `stop` is not implemented. */
  function Stop(r: Run): (c: Result<BackendCall>)
    ensures c == Err(NotImplementedError)
  {
    Err(NotImplementedError)
  }

  /** `set_status`: a mapping replaces the status wholesale, anything else is
      refused. */
  function SetStatus(r: Run, status: Json): (o: Result<Run>)
    ensures o.Ok? <==> status.JObj?
    ensures o.Err? ==> o.error == EntityError(StatusNotDictMessage)
    ensures o.Ok? ==> o.value.status == status.fields && o.value.(status := r.status) == r
  {
    if status.JObj? then Ok(r.(status := status.fields)) else Err(EntityError(StatusNotDictMessage))
  }

  // ---------------------------------------------------------------------
  // Output lookup (`get_artifacts`, `get_dataitem`)
  // ---------------------------------------------------------------------

  /** What the lookup hands to the key-based getter: one key, or all keys. */
  datatype Outputs = One(id: Json) | Every(ids: seq<Json>)

  /** `resp.get("status", {})` */
  function StatusOf(resp: Dict): Json {
    GetOr(resp, "status", JObj(map[]))
  }

  /** The entries `for r in result` visits, or the error the visit raises.
      A list yields its items.  A string or a dict yields strings (its
      characters or its keys), and `.get` on the first of them raises
      AttributeError, so only an empty one yields nothing.  An int or a bool
      is not iterable. */
  function Entries(result: Json): (r: Result<seq<Json>>)
    ensures result.JList? ==> r == Ok(result.items)
    ensures r.Ok? && !result.JList? ==> r.value == []
  {
    match result
    case JList(items) => Ok(items)
    case JStr(s) => if s == "" then Ok([]) else Err(AttributeError)
    case JObj(d) => if d == map[] then Ok([]) else Err(AttributeError)
    case JNull => Err(TypeError)
    case JInt(_) => Err(TypeError)
    case JBool(_) => Err(TypeError)
  }

  /** The fields of a dict entry (none for anything else). */
  function FieldsOf(v: Json): Dict {
    if v.JObj? then v.fields else map[]
  }

  /** `r.get("key") == output_key` on one entry. */
  function KeyProbe(key: string): Json -> Result<bool> {
    (v: Json) => if v.JObj? then Ok(Get(v.fields, "key") == JStr(key)) else Err(AttributeError)
  }

  /** `[... r.get("id") for r in result]`: the `id` of every entry, failing
      on the first entry that is not a dict. */
  function EntryIds(entries: seq<Json>): (r: Result<seq<Json>>)
    ensures r.Ok? <==> forall i :: 0 <= i < |entries| ==> entries[i].JObj?
    ensures r.Err? ==> r.error == AttributeError
    ensures r.Ok? ==>
      && |r.value| == |entries|
      && forall i :: 0 <= i < |entries| ==> r.value[i] == Get(entries[i].fields, "id")
    decreases |entries|
  {
    if |entries| == 0 then Ok([])
    else if !entries[0].JObj? then Err(AttributeError)
    else
      match EntryIds(entries[1..])
      case Err(e) => Err(e)
      case Ok(rest) =>
        assert forall i :: 1 <= i < |entries| ==> entries[i] == entries[1..][i - 1];
        Ok([Get(entries[0].fields, "id")] + rest)
  }

  function NotFoundMessage(noun: string, key: string): string {
    "No " + noun + " found with key '" + key + "'."
  }

  /** The lookup common to `get_artifacts` (`collection` "artifacts", `noun`
      "artifact") and `get_dataitem` ("dataitems", "dataitem"), over the
      response of the refresh. */
  function LookupOutputs(resp: Dict, collection: string, noun: string, outputKey: Option<string>): (r: Result<Outputs>)
    ensures !StatusOf(resp).JObj? ==> r == Err(AttributeError)
    ensures StatusOf(resp).JObj? && Get(StatusOf(resp).fields, collection) == JNull ==>
      r == Err(EntityError(NoResultMessage))
    // every success comes from a recorded list of entries
    ensures r.Ok? ==> StatusOf(resp).JObj? && Get(StatusOf(resp).fields, collection) != JNull
    // without a key: the id of every entry, in order
    ensures var st := StatusOf(resp);
      st.JObj? && Get(st.fields, collection).JList? && outputKey.None? ==>
        var entries := Get(st.fields, collection).items;
        && (r.Ok? <==> forall i :: 0 <= i < |entries| ==> entries[i].JObj?)
        && (r.Ok? ==> r.value.Every? && |r.value.ids| == |entries|
                      && forall i :: 0 <= i < |entries| ==> r.value.ids[i] == Get(entries[i].fields, "id"))
    // with a key: the id of the first entry whose key matches
    ensures var st := StatusOf(resp);
      st.JObj? && Get(st.fields, collection).JList? && outputKey.Some? && r.Ok? ==>
        var entries := Get(st.fields, collection).items;
        && r.value.One? && r.value.id != JNull
        && exists i :: 0 <= i < |entries| && entries[i].JObj?
             && Get(entries[i].fields, "key") == JStr(outputKey.value)
             && r.value.id == Get(entries[i].fields, "id")
             && forall j :: 0 <= j < i ==> entries[j].JObj? && Get(entries[j].fields, "key") != JStr(outputKey.value)
    // with a key: the first matching entry decides, its id being returned
    // unless it is None
    ensures var st := StatusOf(resp);
      st.JObj? && Get(st.fields, collection).JList? && outputKey.Some? ==>
        var entries := Get(st.fields, collection).items;
        forall i :: 0 <= i < |entries| && entries[i].JObj?
                    && Get(entries[i].fields, "key") == JStr(outputKey.value)
                    && (forall j :: 0 <= j < i ==>
                          entries[j].JObj? && Get(entries[j].fields, "key") != JStr(outputKey.value)) ==>
          r == (if Get(entries[i].fields, "id") == JNull then Err(EntityError(NotFoundMessage(noun, outputKey.value)))
                else Ok(One(Get(entries[i].fields, "id"))))
    // with a key: an entry that is not a dict, met before any match, raises
    ensures var st := StatusOf(resp);
      st.JObj? && Get(st.fields, collection).JList? && outputKey.Some? ==>
        var entries := Get(st.fields, collection).items;
        forall k :: 0 <= k < |entries| && !entries[k].JObj?
                    && (forall j :: 0 <= j < k ==>
                          entries[j].JObj? && Get(entries[j].fields, "key") != JStr(outputKey.value)) ==>
          r == Err(AttributeError)
    // with a key that no entry (all dicts) carries: not found
    ensures var st := StatusOf(resp);
      st.JObj? && Get(st.fields, collection).JList? && outputKey.Some?
      && (forall i :: 0 <= i < |Get(st.fields, collection).items| ==>
            && Get(st.fields, collection).items[i].JObj?
            && Get(Get(st.fields, collection).items[i].fields, "key") != JStr(outputKey.value)) ==>
        r == Err(EntityError(NotFoundMessage(noun, outputKey.value)))
  {
    var st := StatusOf(resp);
    if !st.JObj? then Err(AttributeError)
    else
      var result := Get(st.fields, collection);
      if result == JNull then Err(EntityError(NoResultMessage))
      else
        var entries :- Entries(result);
        match outputKey
        case None =>
          var ids :- EntryIds(entries);
          Ok(Every(ids))
        case Some(key) =>
          FirstMatchDetermined(entries, KeyProbe(key));
          var hit :- FirstMatch(entries, KeyProbe(key));
          match hit
          case None => Err(EntityError(NotFoundMessage(noun, key)))
          case Some(i) =>
            var id := Get(FieldsOf(entries[i]), "id");
            if id == JNull then Err(EntityError(NotFoundMessage(noun, key))) else Ok(One(id))
  }

  /** `get_artifacts`: refreshes (refused in local mode), then looks up the
      artifacts in the refreshed status. */
  function GetArtifacts(r: Run, resp: Dict, outputKey: Option<string>): (o: Result<Outputs>)
    ensures r.local ==> o == Err(EntityError(LocalRefreshMessage))
    ensures !r.local ==> o == LookupOutputs(resp, "artifacts", "artifact", outputKey)
  {
    var _ :- Refresh(r);
    LookupOutputs(resp, "artifacts", "artifact", outputKey)
  }

  /** `get_dataitem`: the same over the dataitems. */
  function GetDataitems(r: Run, resp: Dict, outputKey: Option<string>): (o: Result<Outputs>)
    ensures r.local ==> o == Err(EntityError(LocalRefreshMessage))
    ensures !r.local ==> o == LookupOutputs(resp, "dataitems", "dataitem", outputKey)
  {
    var _ :- Refresh(r);
    LookupOutputs(resp, "dataitems", "dataitem", outputKey)
  }

  /** Whenever the full listing succeeds, a keyed lookup either names one of
      the listed ids or reports that the key is not there. */
  lemma KeyedLookupWithinListing(resp: Dict, collection: string, noun: string, key: string)
    requires LookupOutputs(resp, collection, noun, None).Ok?
    ensures var all := LookupOutputs(resp, collection, noun, None).value;
      var one := LookupOutputs(resp, collection, noun, Some(key));
      && all.Every?
      && (one.Ok? ==> one.value.One? && one.value.id in all.ids)
      && (one.Err? ==> one.error == EntityError(NotFoundMessage(noun, key)))
  {
    var st := StatusOf(resp);
    var entries := Entries(Get(st.fields, collection)).value;
    var ids := EntryIds(entries).value;
    var hit := FirstMatch(entries, KeyProbe(key));
    if hit.Ok? && hit.value.Some? {
      var i := hit.value.value;
      assert ids[i] == Get(FieldsOf(entries[i]), "id");
    }
  }

  // ---------------------------------------------------------------------
  // Parsing (`_parse_dict`)
  // ---------------------------------------------------------------------

  /** `_parse_dict`: project, task_id and task are mandatory, the id and the
      kind optional (the kind defaults to "run"), and a missing spec is an
      empty one.  `buildSpec` is the spec builder, which may itself raise.
      It is called as `build_spec(kind=kind, **spec)`, so a spec that is not
      a mapping, or one that holds `kind` too, raises TypeError. */
  function ParseRunDict(obj: Dict, buildSpec: (Json, Dict) -> Result<Json>): (r: Result<Dict>)
    ensures Get(obj, "project") == JNull || Get(obj, "task_id") == JNull || Get(obj, "task") == JNull ==>
      r == Err(EntityError(MissingFieldsMessage))
    // the spec cannot be unpacked beside `kind=`
    ensures var spec := Get(obj, "spec");
      (&& Get(obj, "project") != JNull && Get(obj, "task_id") != JNull && Get(obj, "task") != JNull
       && spec != JNull && !(spec.JObj? && "kind" !in spec.fields)) ==> r == Err(TypeError)
    // an error of the spec builder passes through
    ensures var spec := Get(obj, "spec");
      var kind := if "kind" in obj then obj["kind"] else JStr("run");
      (&& Get(obj, "project") != JNull && Get(obj, "task_id") != JNull && Get(obj, "task") != JNull
       && (spec == JNull || (spec.JObj? && "kind" !in spec.fields))
       && buildSpec(kind, if spec.JObj? then spec.fields else map[]).Err?) ==>
        r == Err(buildSpec(kind, if spec.JObj? then spec.fields else map[]).error)
    // with the fields present, an unpackable spec and a builder that succeeds, the parse succeeds
    ensures var spec := Get(obj, "spec");
      var kind := if "kind" in obj then obj["kind"] else JStr("run");
      (&& Get(obj, "project") != JNull && Get(obj, "task_id") != JNull && Get(obj, "task") != JNull
       && (spec == JNull || (spec.JObj? && "kind" !in spec.fields))
       && buildSpec(kind, if spec.JObj? then spec.fields else map[]).Ok?) ==> r.Ok?
    ensures r.Ok? ==>
      && r.value.Keys == {"project", "task_id", "task", "kind", "uuid", "spec"}
      && r.value["project"] == obj["project"] && r.value["task_id"] == obj["task_id"]
      && r.value["task"] == obj["task"]
      && r.value["uuid"] == Get(obj, "id")
      && r.value["kind"] == (if "kind" in obj then obj["kind"] else JStr("run"))
      && var spec := Get(obj, "spec");
         (spec == JNull || (spec.JObj? && "kind" !in spec.fields))
         && Ok(r.value["spec"]) == buildSpec(r.value["kind"], if spec.JObj? then spec.fields else map[])
  {
    var project := Get(obj, "project");
    var taskId := Get(obj, "task_id");
    var task := Get(obj, "task");
    if project == JNull || taskId == JNull || task == JNull then Err(EntityError(MissingFieldsMessage))
    else
      var uuid := Get(obj, "id");
      var kind := GetOr(obj, "kind", JStr("run"));
      var spec := Get(obj, "spec");
      var spec := if spec != JNull then spec else JObj(map[]);
      var kwargs :- KwargsBeside(spec, "kind");
      var built :- buildSpec(kind, kwargs);
      Ok(map["project" := project, "task_id" := taskId, "task" := task,
             "kind" := kind, "uuid" := uuid, "spec" := built])
  }

  /** Parsing what a run serialises to gives back its identity, kind and id,
      provided it names its task, its spec has no `kind` of its own and the
      spec builder accepts the spec.  A run without a task does not parse,
      one whose spec holds `kind` raises TypeError, and a builder error
      passes through. */
  lemma ParseOfToDict(r: Run, buildSpec: (Json, Dict) -> Result<Json>)
    ensures r.task.None? ==> ParseRunDict(ToDict(r), buildSpec) == Err(EntityError(MissingFieldsMessage))
    ensures r.task.Some? && "kind" in r.spec ==> ParseRunDict(ToDict(r), buildSpec) == Err(TypeError)
    ensures r.task.Some? && "kind" !in r.spec && buildSpec(JStr(r.kind), r.spec).Err? ==>
      ParseRunDict(ToDict(r), buildSpec) == Err(buildSpec(JStr(r.kind), r.spec).error)
    ensures r.task.Some? && "kind" !in r.spec && buildSpec(JStr(r.kind), r.spec).Ok? ==>
      var p := ParseRunDict(ToDict(r), buildSpec);
      && p.Ok?
      && p.value["project"] == JStr(r.project) && p.value["task_id"] == JStr(r.taskId)
      && p.value["task"] == JStr(r.task.value)
      && p.value["kind"] == JStr(r.kind) && p.value["uuid"] == JStr(r.id)
      && p.value["spec"] == buildSpec(JStr(r.kind), r.spec).value
  {
  }
}

=== FILE: sdk_status.dfy ===
/** The older SDK's entity status: the `State` enumeration, the base
    `Status` value object, and the kind-keyed `StatusBuilder` registry. */
module SdkStatus {
  import opened Outcomes
  import opened Json
  import opened Commons

  /** The state enumeration: nine members, and no `STOPPED` (the stop state
      is called `STOP` here). */
  datatype State = BUILT | COMPLETED | CREATED | ERROR | IDLE | PENDING | READY | RUNNING | STOP

  /** A member's name, as `State.__members__` lists it. */
  function Name(s: State): string {
    match s
    case BUILT => "BUILT"
    case COMPLETED => "COMPLETED"
    case CREATED => "CREATED"
    case ERROR => "ERROR"
    case IDLE => "IDLE"
    case PENDING => "PENDING"
    case READY => "READY"
    case RUNNING => "RUNNING"
    case STOP => "STOP"
  }

  /** A member's value, as `State.X.value` gives it. */
  function Value(s: State): string {
    match s
    case BUILT => "BUILT"
    case COMPLETED => "COMPLETED"
    case CREATED => "CREATED"
    case ERROR => "ERROR"
    case IDLE => "IDLE"
    case PENDING => "PENDING"
    case READY => "READY"
    case RUNNING => "RUNNING"
    case STOP => "STOP"
  }

  /** Every value equals its name, so checking a state string against the
      member names is the same as checking it against the values. */
  lemma ValueIsName(s: State)
    ensures Value(s) == Name(s)
  {
  }

  /** `n in State.__members__`, returning the member. */
  function FromName(n: string): (s: Option<State>)
    ensures s.Some? ==> Name(s.value) == n
    ensures s.None? ==> forall m: State :: Name(m) != n
  {
    match n
    case "BUILT" => Some(BUILT)
    case "COMPLETED" => Some(COMPLETED)
    case "CREATED" => Some(CREATED)
    case "ERROR" => Some(ERROR)
    case "IDLE" => Some(IDLE)
    case "PENDING" => Some(PENDING)
    case "READY" => Some(READY)
    case "RUNNING" => Some(RUNNING)
    case "STOP" => Some(STOP)
    case _ => None
  }

  /** The member names are exactly these nine strings; `STOPPED` is not one. */
  lemma {:induction false} MemberNames()
    ensures forall s: State :: FromName(Name(s)) == Some(s)
    ensures forall n: string :: FromName(n).Some? <==>
      n in {"BUILT", "COMPLETED", "CREATED", "ERROR", "IDLE", "PENDING", "READY", "RUNNING", "STOP"}
    ensures FromName("STOPPED") == None
  {
    forall s: State ensures FromName(Name(s)) == Some(s) {
      match s
      case BUILT => case COMPLETED => case CREATED => case ERROR => case IDLE =>
      case PENDING => case READY => case RUNNING => case STOP =>
    }
  }

  /** The base `Status(state, message=None)`: both stored as given. */
  datatype Status = Status(state: Json, message: Json)

  /** `Status.from_dict(obj)`, that is `Status(**obj)`: `state` is required,
      `message` defaults to None, and any other key is an unexpected keyword. */
  function StatusFromDict(obj: Dict): (r: Result<Status>)
    ensures r.Ok? <==> "state" in obj && obj.Keys <= {"state", "message"}
    ensures r.Ok? ==> r.value.state == obj["state"] && r.value.message == Get(obj, "message")
    ensures r.Err? ==> r.error == TypeError
  {
    if "state" in obj && obj.Keys <= {"state", "message"} then
      Ok(Status(obj["state"], Get(obj, "message")))
    else Err(TypeError)
  }

  /** The keyword mapping of a status, without `message` when it is None. */
  function StatusKwargs(st: Status): Dict {
    if st.message == JNull then map["state" := st.state]
    else map["state" := st.state, "message" := st.message]
  }

  /** Building a status from its own keyword mapping gives it back. */
  lemma FromDictOfKwargs(st: Status)
    ensures StatusFromDict(StatusKwargs(st)) == Ok(st)
  {
  }

  /** The status classes registered at import. */
  datatype StatusClass =
    | ArtifactStatus | DataitemStatus | FunctionStatus | ProjectStatus
    | RunStatus | TaskStatus | WorkflowStatus

  type Registry = map<string, StatusClass>

  /** `register`: the module now builds `cls`, replacing any earlier class;
      every other module keeps its class. */
  function Register(reg: Registry, moduleName: string, cls: StatusClass): (reg': Registry)
    ensures moduleName in reg' && reg'[moduleName] == cls
    ensures reg'.Keys == reg.Keys + {moduleName}
    ensures forall m :: m in reg && m != moduleName ==> reg'[m] == reg[m]
  {
    reg[moduleName := cls]
  }

  /** Registering a module twice keeps only the later class. */
  lemma RegisterOverwrites(reg: Registry, moduleName: string, a: StatusClass, b: StatusClass)
    ensures Register(Register(reg, moduleName, a), moduleName, b) == Register(reg, moduleName, b)
  {
  }

  /** The registry as the module leaves it at import: the seven
      registrations, one per entity module. */
  function DefaultRegistry(): (reg: Registry)
    ensures reg.Keys == {ARTF, DTIT, FUNC, PROJ, RUNS, TASK, WKFL}
    ensures reg[ARTF] == ArtifactStatus && reg[DTIT] == DataitemStatus && reg[FUNC] == FunctionStatus
    ensures reg[PROJ] == ProjectStatus && reg[RUNS] == RunStatus && reg[TASK] == TaskStatus
    ensures reg[WKFL] == WorkflowStatus
  {
    map[ARTF := ArtifactStatus, DTIT := DataitemStatus, FUNC := FunctionStatus, PROJ := ProjectStatus,
        RUNS := RunStatus, TASK := TaskStatus, WKFL := WorkflowStatus]
  }

  /** The import-time registry is what the seven `register` calls, in their
      order, produce from an empty registry. */
  lemma DefaultRegistryIsRegistrations()
    ensures DefaultRegistry() ==
      Register(Register(Register(Register(Register(Register(Register(
        map[], ARTF, ArtifactStatus), DTIT, DataitemStatus), FUNC, FunctionStatus),
        PROJ, ProjectStatus), RUNS, RunStatus), TASK, TaskStatus), WKFL, WorkflowStatus)
  {
  }

  /** `_parse_arguments`: a missing or None state becomes `CREATED`; a state
      that is not a member name is refused; nothing else is touched. */
  function ParseArguments(kwargs: Dict): (r: Result<Dict>)
    ensures Get(kwargs, "state") == JNull ==> r == Ok(kwargs["state" := JStr(Value(CREATED))])
    ensures Get(kwargs, "state") != JNull ==>
      (r.Ok? <==> kwargs["state"].JStr? && FromName(kwargs["state"].s).Some?)
    ensures r.Ok? ==> r.value.Keys == kwargs.Keys + {"state"}
    ensures r.Ok? ==> forall k :: k in kwargs && k != "state" ==> r.value[k] == kwargs[k]
    ensures r.Ok? && Get(kwargs, "state") != JNull ==> r.value == kwargs
    ensures r.Err? ==> r.error.ValueError? || r.error == TypeError
    ensures Get(kwargs, "state").JList? || Get(kwargs, "state").JObj? ==> r == Err(TypeError)
    ensures Get(kwargs, "state").JStr? && FromName(Get(kwargs, "state").s).None? ==>
      r == Err(ValueError("Invalid state: " + Get(kwargs, "state").s))
    ensures Get(kwargs, "state").JBool? || Get(kwargs, "state").JInt? ==>
      r == Err(ValueError("Invalid state: " + Show(Get(kwargs, "state"))))
  {
    var state := Get(kwargs, "state");
    match state
    case JNull => Ok(kwargs["state" := JStr(Value(CREATED))])
    case JStr(n) => if FromName(n).Some? then Ok(kwargs) else Err(ValueError("Invalid state: " + n))
    case JList(_) => Err(TypeError)   // an unhashable value cannot be looked up
    case JObj(_) => Err(TypeError)
    case JBool(_) => Err(ValueError("Invalid state: " + Show(state)))
    case JInt(_) => Err(ValueError("Invalid state: " + Show(state)))
  }

  /** Parsing is idempotent: the default it stores, `State.CREATED.value`,
      passes the membership check on the member names, so parsed arguments
      parse to themselves. */
  lemma ParseArgumentsIdempotent(kwargs: Dict)
    requires ParseArguments(kwargs).Ok?
    ensures ParseArguments(ParseArguments(kwargs).value) == ParseArguments(kwargs)
  {
    var parsed := ParseArguments(kwargs).value;
    if Get(kwargs, "state") == JNull {
      ValueIsName(CREATED);
      assert Get(parsed, "state") == JStr(Name(CREATED));
      assert FromName(Name(CREATED)) == Some(CREATED);
    }
  }

  /** A status object as the registry builds it: its class and the keyword
      arguments it is constructed with. */
  datatype BuiltStatus = BuiltStatus(cls: StatusClass, args: Dict)

  /** `build`: an unregistered module is refused before the arguments are
      looked at; otherwise the registered class receives the parsed
      arguments. */
  function Build(reg: Registry, moduleName: string, kwargs: Dict): (r: Result<BuiltStatus>)
    ensures moduleName !in reg ==> r == Err(ValueError("Invalid module name: " + moduleName))
    ensures moduleName in reg ==>
      (r.Ok? <==> ParseArguments(kwargs).Ok?)
      && (r.Ok? ==> r.value == BuiltStatus(reg[moduleName], ParseArguments(kwargs).value))
      && (r.Err? ==> r.error == ParseArguments(kwargs).error)
  {
    if moduleName !in reg then Err(ValueError("Invalid module name: " + moduleName))
    else
      var args :- ParseArguments(kwargs);
      Ok(BuiltStatus(reg[moduleName], args))
  }

  /** With the import-time registry, building a run status without a state
      gives a CREATED run status. */
  lemma BuildRunStatusDefaultsToCreated(kwargs: Dict)
    requires "state" !in kwargs
    ensures Build(DefaultRegistry(), RUNS, kwargs)
            == Ok(BuiltStatus(RunStatus, kwargs["state" := JStr("CREATED")]))
  {
  }
}

=== FILE: strings.dfy ===
/** The string operations the modelled code uses: Python's `str.split(sep)`
    for a non-empty separator, the matching `sep.join(parts)`, and the
    character-for-character `str.replace` of one character by another. */
module Strings {
  import opened Outcomes

  predicate OccursAt(s: string, sep: string, i: nat) {
    i + |sep| <= |s| && s[i..i + |sep|] == sep
  }

  ghost predicate Contains(s: string, sep: string) {
    exists i: nat :: OccursAt(s, sep, i)
  }

  lemma OccursShift(s: string, sep: string, i: nat)
    requires |s| > 0
    ensures OccursAt(s[1..], sep, i) <==> OccursAt(s, sep, i + 1)
  {
    if i + |sep| <= |s[1..]| {
      assert s[1..][i..i + |sep|] == s[i + 1..i + 1 + |sep|];
    }
  }

  /** The index of the leftmost occurrence of `sep` in `s` at or after `k`. */
  function FindFrom(s: string, sep: string, k: nat): (r: Option<nat>)
    requires |sep| > 0
    ensures r.Some? ==> k <= r.value && OccursAt(s, sep, r.value)
    decreases |s| - k
  {
    if |s| < k + |sep| then None
    else if OccursAt(s, sep, k) then Some(k)
    else FindFrom(s, sep, k + 1)
  }

  /** The index of the leftmost occurrence of `sep` in `s` (Python's
      `s.find(sep)`, with `None` for -1). */
  function Find(s: string, sep: string): (r: Option<nat>)
    requires |sep| > 0
    ensures r.Some? ==> OccursAt(s, sep, r.value)
  {
    FindFrom(s, sep, 0)
  }

  /** `FindFrom` skips no occurrence. */
  lemma {:induction false} FindFromFirst(s: string, sep: string, k: nat)
    requires |sep| > 0
    ensures FindFrom(s, sep, k).Some? ==>
      forall j: nat :: k <= j < FindFrom(s, sep, k).value ==> !OccursAt(s, sep, j)
    ensures FindFrom(s, sep, k).None? ==> forall j: nat :: k <= j ==> !OccursAt(s, sep, j)
    decreases |s| - k
  {
    if |s| < k + |sep| {
    } else if OccursAt(s, sep, k) {
    } else {
      FindFromFirst(s, sep, k + 1);
    }
  }

  /** The occurrence `Find` reports is the leftmost one. */
  lemma FindFirst(s: string, sep: string)
    requires |sep| > 0
    ensures Find(s, sep).Some? ==> forall j: nat :: j < Find(s, sep).value ==> !OccursAt(s, sep, j)
  {
    FindFromFirst(s, sep, 0);
  }

  /** `Find` fails exactly when the separator does not occur. */
  lemma FindNone(s: string, sep: string)
    requires |sep| > 0
    ensures Find(s, sep).None? <==> !Contains(s, sep)
  {
    FindFromFirst(s, sep, 0);
  }

  /** An occurrence with no earlier one is the one `Find` reports. */
  lemma FindLeftmost(s: string, sep: string, i: nat)
    requires |sep| > 0
    requires OccursAt(s, sep, i)
    requires forall j: nat :: j < i ==> !OccursAt(s, sep, j)
    ensures Find(s, sep) == Some(i)
  {
    FindFromFirst(s, sep, 0);
  }

  lemma NoOccurrenceInPrefix(s: string, sep: string, i: nat, j: nat)
    requires |sep| > 0
    requires i <= |s|
    requires forall k: nat :: k < i ==> !OccursAt(s, sep, k)
    ensures !OccursAt(s[..i], sep, j)
  {
    if OccursAt(s[..i], sep, j) {
      assert s[..i][j..j + |sep|] == s[j..j + |sep|];
      assert OccursAt(s, sep, j);
    }
  }

  /** Python `s.split(sep)`: the pieces between the leftmost non-overlapping
      occurrences of `sep`; there is always at least one piece and no piece
      contains the separator. */
  function Split(s: string, sep: string): (parts: seq<string>)
    requires |sep| > 0
    ensures |parts| >= 1
    decreases |s|
  {
    match Find(s, sep)
    case None => [s]
    case Some(i) => [s[..i]] + Split(s[i + |sep|..], sep)
  }

  /** No piece of a split contains the separator. */
  lemma {:induction false} SplitPiecesFree(s: string, sep: string)
    requires |sep| > 0
    ensures forall k :: 0 <= k < |Split(s, sep)| ==> !Contains(Split(s, sep)[k], sep)
    decreases |s|
  {
    match Find(s, sep)
    case None =>
      FindNone(s, sep);
    case Some(i) =>
      FindFirst(s, sep);
      forall j: nat ensures !OccursAt(s[..i], sep, j) {
        NoOccurrenceInPrefix(s, sep, i, j);
      }
      var rest := s[i + |sep|..];
      SplitPiecesFree(rest, sep);
      assert Split(s, sep) == [s[..i]] + Split(rest, sep);
  }

  /** Python `sep.join(parts)`. */
  function Join(parts: seq<string>, sep: string): string {
    if |parts| == 0 then ""
    else if |parts| == 1 then parts[0]
    else parts[0] + sep + Join(parts[1..], sep)
  }

  /** Joining the pieces of a split with the same separator gives back the
      original string. */
  lemma {:induction false} JoinSplit(s: string, sep: string)
    requires |sep| > 0
    ensures Join(Split(s, sep), sep) == s
    decreases |s|
  {
    match Find(s, sep)
    case None =>
    case Some(i) =>
      var rest := s[i + |sep|..];
      var pieces := Split(rest, sep);
      JoinSplit(rest, sep);
      assert Split(s, sep) == [s[..i]] + pieces;
      JoinCons(s[..i], pieces, sep);
      assert s[i..i + |sep|] == sep;
      assert s == s[..i] + sep + rest;
  }

  /** A one-character separator occurs exactly where that character is. */
  lemma OccursChar(s: string, c: char, j: nat)
    ensures OccursAt(s, [c], j) <==> j < |s| && s[j] == c
  {
    if j + 1 <= |s| {
      assert s[j..j + 1] == [s[j]];
    }
  }

  /** The first separator character in `a + [c] + b` is the first one in
      `a`, or else the one placed after `a`. */
  lemma FindBefore(a: string, c: char, b: string)
    ensures Find(a + [c] + b, [c]) == (if Find(a, [c]).Some? then Find(a, [c]) else Some(|a|))
  {
    var s := a + [c] + b;
    match Find(a, [c])
    case None =>
      FindNone(a, [c]);
      forall j: nat | j < |a| ensures !OccursAt(s, [c], j) {
        OccursChar(s, c, j);
        OccursChar(a, c, j);
      }
      OccursChar(s, c, |a|);
      FindLeftmost(s, [c], |a|);
    case Some(i) =>
      FindFirst(a, [c]);
      forall j: nat | j < i ensures !OccursAt(s, [c], j) {
        OccursChar(s, c, j);
        OccursChar(a, c, j);
      }
      OccursChar(a, c, i);
      OccursChar(s, c, i);
      FindLeftmost(s, [c], i);
  }

  /** A split at a found separator: the piece before it, then the split of
      what follows it. */
  lemma SplitAt(s: string, sep: string, i: nat)
    requires |sep| > 0 && Find(s, sep) == Some(i)
    ensures i + |sep| <= |s|
    ensures Split(s, sep) == [s[..i]] + Split(s[i + |sep|..], sep)
  {
  }

  /** With a one-character separator a split distributes over a separator
      placed between two strings. */
  lemma {:induction false} SplitAround(a: string, c: char, b: string)
    ensures Split(a + [c] + b, [c]) == Split(a, [c]) + Split(b, [c])
    decreases |a|
  {
    FindBefore(a, c, b);
    if Find(a, [c]).None? {
      SplitAroundFree(a, c, b);
    } else {
      var i := Find(a, [c]).value;
      SplitAroundStep(a, c, b, i);
      SplitAround(a[i + 1..], c, b);
      ConsConcat(a[..i], Split(a[i + 1..], [c]), Split(b, [c]));
    }
  }

  /** The case of `SplitAround` where `a` holds no separator. */
  lemma SplitAroundFree(a: string, c: char, b: string)
    requires Find(a, [c]).None?
    ensures Split(a + [c] + b, [c]) == Split(a, [c]) + Split(b, [c])
  {
    var s := a + [c] + b;
    FindBefore(a, c, b);
    FindNone(a, [c]);
    SplitWithout(a, [c]);
    SplitAt(s, [c], |a|);
    assert s[..|a|] == a;
    assert s[|a| + 1..] == b;
  }

  /** The case of `SplitAround` where the first separator of `a` is at `i`:
      both splits begin with `a[..i]` and continue with the rest of `a`. */
  lemma SplitAroundStep(a: string, c: char, b: string, i: nat)
    requires Find(a, [c]) == Some(i)
    ensures i < |a|
    ensures Split(a + [c] + b, [c]) == [a[..i]] + Split(a[i + 1..] + [c] + b, [c])
    ensures Split(a, [c]) == [a[..i]] + Split(a[i + 1..], [c])
  {
    var s := a + [c] + b;
    FindBefore(a, c, b);
    SplitAt(s, [c], i);
    SplitAt(a, [c], i);
    assert s[..i] == a[..i];
    assert s[i + 1..] == a[i + 1..] + [c] + b;
  }

  lemma ConsConcat<T>(x: T, p: seq<T>, q: seq<T>)
    ensures [x] + (p + q) == ([x] + p) + q
  {
  }

  lemma Assoc<T>(a: seq<T>, b: seq<T>, c: seq<T>)
    ensures a + (b + c) == (a + b) + c
  {
  }

  /** A string without the separator splits into itself alone. */
  lemma SplitWithout(s: string, sep: string)
    requires |sep| > 0
    requires !Contains(s, sep)
    ensures Split(s, sep) == [s]
  {
  }

  lemma NoCharPiece(s: string, c: char)
    requires !Contains(s, [c])
    ensures c !in s
  {
    if c in s {
      var i :| 0 <= i < |s| && s[i] == c;
      assert OccursAt(s, [c], i);
    }
  }

  lemma NoCharNoOccurrence(s: string, c: char)
    requires c !in s
    ensures !Contains(s, [c])
  {
    forall i: nat ensures !OccursAt(s, [c], i) {
      if i + 1 <= |s| {
        assert s[i..i + 1][0] == s[i];
      }
    }
  }

  /** Splitting at a character that separates two pieces free of it yields
      exactly those pieces. */
  lemma SplitPair(a: string, c: char, b: string)
    requires c !in a && c !in b
    ensures Split(a + [c] + b, [c]) == [a, b]
  {
    SplitAround(a, c, b);
    NoCharNoOccurrence(a, c);
    NoCharNoOccurrence(b, c);
    SplitWithout(a, [c]);
    SplitWithout(b, [c]);
  }

  /** The last piece of a split at `c` is whatever follows the last `c`. */
  lemma SplitLast(a: string, c: char, b: string)
    requires c !in b
    ensures var parts := Split(a + [c] + b, [c]); parts[|parts| - 1] == b
  {
    SplitAround(a, c, b);
    NoCharNoOccurrence(b, c);
    SplitWithout(b, [c]);
  }

  /** Joining pieces free of a character with that character, then
      splitting at it, gives back the pieces. */
  lemma {:induction false} SplitJoinChar(parts: seq<string>, c: char)
    requires |parts| >= 1
    requires forall k :: 0 <= k < |parts| ==> c !in parts[k]
    ensures Split(Join(parts, [c]), [c]) == parts
    decreases |parts|
  {
    var head := parts[0];
    NoCharNoOccurrence(head, c);
    SplitWithout(head, [c]);
    if |parts| > 1 {
      var tail := parts[1..];
      assert forall k :: 0 <= k < |tail| ==> tail[k] == parts[k + 1];
      SplitJoinChar(tail, c);
      var rest := Join(tail, [c]);
      assert Join(parts, [c]) == head + [c] + rest;
      SplitAround(head, c, rest);
      assert parts == [head] + tail;
    }
  }

  /** Joining a piece in front of non-empty pieces puts one separator
      between it and their join. */
  lemma JoinCons(head: string, tail: seq<string>, sep: string)
    requires |tail| >= 1
    ensures Join([head] + tail, sep) == head + sep + Join(tail, sep)
  {
    assert ([head] + tail)[1..] == tail;
  }

  /** Python `s.replace(x, y)` for single characters `x` and `y`. */
  function ReplaceChar(s: string, x: char, y: char): (t: string)
    ensures |t| == |s|
    ensures forall i :: 0 <= i < |s| ==> t[i] == (if s[i] == x then y else s[i])
  {
    if |s| == 0 then "" else [if s[0] == x then y else s[0]] + ReplaceChar(s[1..], x, y)
  }
}
